=== FILE: README.md ===
# Minimal ADC core in Dafny

Minimal ADC is a small AIRR Data Commons server. It serves repertoire
metadata and rearrangement files from per-study `metadata.json` documents.
This project models the core of its two resource modules: the current
generation `repertoire.py` and the earlier `app/repertoire.py`. It covers:

- **Field validation and projection** (`Fields`): `validate_fields`,
  `get_filtered_metadata` and `get_metadata`.
  - Dotted field paths are checked against a repertoire record.
  - Each unresolved path is reported as its remaining dotted suffix.
  - The record is cut down to the requested keys.
  - A requested path that ends on a non-empty dict, or on a list holding
    one, makes the projection raise an IndexError, as in the code.
- **Request validators** (`Requests`): `validate_repertoire_request` and
  `validate_request` of both generations.
  - Each is a first-failure-wins chain.
  - The model returns the accepted value, the first rejection, or an
    uncaught Python exception.
- **Catalog index and lookups** (`Catalog`):
  - `create_repertoire_map` builds the ordered `repertoire_map`.
  - `find_repertoire_path_by_id` and `get_repertoire_information` find a
    repertoire.
  - `filter_repertoires_by_study` and `get_all_repertoires` list
    repertoires.
  - `get_rearrangements_count` answers facet counts.
  - `get_rearrangements_files` resolves the rearrangement file.
- **Usage ledger** (`Ledger`): `check_download_limit` and the transfer
  accounting of the rearrangement handler.
  - The ledger is a state machine over the usage file, the in-memory
    `USAGE` record and `FIRST_LOAD`.
  - Time is passed in as an integer number of microseconds.

Shared modules:

- `Json` models parsed JSON and the Python operators the code applies to it:
  `in`, iteration, `[]`, truthiness, `len`, `int()` and f-string display.
  Non-dict bodies therefore behave as in Python.
- `Text` models `split('.')`, `'.'.join`, substring tests, `str.replace` and
  POSIX `os.path.join`.
- `Wrappers` holds `Option`, `Result`, `Outcome` (returned or raised), and
  sequence helpers.

Inputs the code reads from disk are parameters:

- the parsed metadata documents (`Catalog.Store`);
- the directory listing (`studies`);
- the sizes of the rearrangement files (`Catalog.Artifacts`);
- the current time (`now`).

Behaviour of the code worth knowing:

- **Duplicate ids.** The build performs no duplicate or artifact-presence
  checks. An id listed by several documents resolves to the LAST of them in
  `find_repertoire_path_by_id`, and to the FIRST in
  `get_rearrangements_files`.
- **Failed build.** A failing document does not stop the server: `app.py`
  catches the exception, and the part of the index built so far stays in
  place (`Catalog.Build.Aborted`). That part is exactly the complete build
  of the studies listed before the first failing one
  (`Catalog.AbortKeepsPrefix`).
- **`format` with several ids.** There is no "exactly one repertoire id"
  error: only the first id of a list is used.
- **Persisting the reset.** The weekly reset is not persisted; see Findings.
- **Study filter.** `filter_repertoires_by_study` returns the records of one
  document only, not of every matching one.

## Model

| member | source | states |
|---|---|---|
| Fields.Missing | repertoire.py:254-263 | every entry `check_recursive` reports is the dotted remainder of the requested path, taken at the dict that lacked the next key |
| Fields.MissingReports | repertoire.py:254-263 | an entry is reported exactly when it is the dotted rest of the path from a key that is absent in some dict the keys before it lead to, walking into every element of a list |
| Fields.ReportedThroughKey | repertoire.py:256-260 | through a dict holding the next key, the reports are those of the value under it for the rest of the path |
| Fields.ReportedInItems | repertoire.py:261-263 | a list reports an entry exactly when one of its elements does |
| Fields.MissingInMembers | repertoire.py:261-263 | the entries reported for a list are those reported for its elements |
| Fields.MissingInFlattens | repertoire.py:261-263 | a list's report is its elements' reports one after another, in element order, one run per element (`ElementReports`), nothing merged or dropped |
| Fields.MissingInAppend | repertoire.py:261-263 | the report over two runs of elements is the first run's report followed by the second's |
| Fields.MissingOneKey | repertoire.py:256-258 | a one-key path reports a dict exactly once, as the key, when the key is absent, and not at all otherwise |
| Fields.MissingEmptyIffResolves | repertoire.py:254-263 | a path reports nothing exactly when it resolves: every key is present wherever the keys before it lead |
| Fields.ValidateFields | repertoire.py:251-270 | every reported entry is a suffix of some requested field; the list is empty (no exception) exactly when every field resolves |
| Fields.ValidateFieldsMembers | repertoire.py:265-267 | the entries of the report are those of the requested fields |
| Fields.ValidateFieldsFlattens | repertoire.py:265-267 | the report is each requested field's report in turn, in request order (`FieldReports`), with every entry kept: the list the exception at 269-270 prints |
| Fields.ValidateFieldsAppend | repertoire.py:265-267 | requesting two runs of fields reports the first run's entries, then the second's |
| Fields.ValidateFieldsReports | repertoire.py:251-270 | an entry is reported exactly when some requested field has a key absent wherever the keys before it lead, and the entry is that field's dotted rest from the absent key |
| Fields.ValidateFieldsAccepts | repertoire.py:251-270 | validation passes (no exception) exactly when every requested field resolves in the record |
| Fields.Tails | repertoire.py:291-292 | the sub-field list is non-empty exactly when some requested path starts with the key, holds the tail of every such path, and has no more entries than there are paths |
| Fields.TailsComeFromPaths | repertoire.py:292 | every sub-field is the tail of a requested path that starts with the key |
| Fields.Project | repertoire.py:286-302 | scalars come back unchanged; a list keeps its length; a dict keeps exactly the keys that start a requested path, in source order |
| Fields.ProjectMembers | repertoire.py:287-296 | the keys of the projected dict are the requested keys of the original, in source order |
| Fields.ProjectFails | repertoire.py:286-302 | the projection raises exactly when some requested path, followed through dicts by key and into every list element, runs out on a non-empty dict (`f[0]` of an empty remainder); otherwise it succeeds |
| Fields.ProjectMembersFails | repertoire.py:289-296 | a dict's projection raises exactly when one of its members trips a path that starts with that member's key |
| Fields.ProjectMembersStep | repertoire.py:289-296 | the dict loop raises exactly when the first member's sub-projection raises or the loop over the rest raises |
| Fields.SomeMemberTrips | repertoire.py:289-293 | some member trips exactly when the first does or one of the rest does |
| Fields.MemberTripsIffTails | repertoire.py:291-293 | a member trips a path through its key exactly when its value trips one of the sub-fields `f[1:]` collected for that key |
| Fields.TripsThroughMembers | repertoire.py:287-296 | with no empty path, a dict trips exactly when one of its members does |
| Fields.TripsThroughItems | repertoire.py:298-299 | a list trips exactly when one of its elements does |
| Fields.GetFilteredMetadata | repertoire.py:282-304 | raises exactly when some requested field, split on dots, runs out on a non-empty dict in the record; a dict result keeps exactly the requested top-level keys |
| Fields.SplitAllTrips | repertoire.py:284 | a split path trips the record exactly when its field does |
| Fields.ProjectItems | repertoire.py:298-299 | a list projects exactly when every element does, into a list of the same length holding each element's projection |
| Fields.SplitAll | repertoire.py:284 | one path per requested field, equal to its `split('.')`, never empty |
| Fields.GetMetadata | repertoire.py:111-116 | a record is returned unchanged when `fields` is absent or empty; a body that is not a dict fails |
| Fields.GetMetadataValidatesFirst | repertoire.py:157-162 | with requested fields, unresolved paths are reported exactly, before any projection; otherwise the projection is returned, or the IndexError exactly when a requested field runs out on a non-empty dict |
| Fields.ProjectIdempotent | repertoire.py:286-302 | projecting a successful projection again with the same paths changes nothing |
| Fields.ProjectMembersIdempotent | repertoire.py:287-296 | the dict branch of projection is idempotent |
| Fields.ProjectItemsIdempotent | repertoire.py:298-299 | the list branch of projection is idempotent |
| Fields.ProjectedLookup | repertoire.py:289-295 | a requested key is present in the projection exactly when present in the original, holding the projection of its value |
| Fields.ProjectionKeepsMissing | repertoire.py:254-263 | validating one of the requested paths against the projection reports what it reports against the original |
| Fields.ProjectItemsKeepMissing | repertoire.py:261-263 | the list case of the previous row |
| Fields.ValidationUnchangedByProjection | repertoire.py:251-304 | the projected record yields the same list of unresolved fields as the original |
| Fields.ValidateUnder | repertoire.py:265-267 | validation against a projection by a superset of the fields' paths is unchanged |
| Fields.ExhaustedPathFails | repertoire.py:291 | once a path has run out, projection raises exactly on a non-empty dict, or a list holding one at any depth |
| Fields.MemberFailureFails | repertoire.py:292-293 | a requested member whose value fails to project makes the whole dict fail |
| Fields.FieldEndingOnDictFails | repertoire.py:284-293 | a requested top-level key whose value is a non-empty dict (or a list holding one) makes `get_filtered_metadata` raise |
| Fields.StringsOfStrings | repertoire.py:265 | a `fields` list of strings is iterated as exactly those names |
| Text.Split | repertoire.py:266 | `split('.')` yields at least one segment and no segment holds a dot |
| Text.JoinSplit | repertoire.py:258 | `'.'.join(path.split('.'))` gives the field back |
| Text.SplitJoin | repertoire.py:258 | splitting a joined list of dot-free segments gives the segments back |
| Text.ReplaceAbsent | repertoire.py:370 | `str.replace` leaves a string without the pattern unchanged |
| Text.ReplaceTrailing | repertoire.py:370 | replacing a trailing separator-free file name in a path whose directory part lacks it rewrites only that name |
| Text.DirPrefix | repertoire.py:241-242 | the directory part `os.path.join` puts before a relative name is the directory itself or the directory plus '/', and is empty or ends in '/' |
| Text.JoinRelative | repertoire.py:241-242 | `os.path.join(dir, name)` of a relative name is that directory prefix followed by the name |
| Text.DirPrefixKeepsAbsence | repertoire.py:241-242 | adding the separator cannot create an occurrence of a separator-free name |
| Requests.FirstUnexpected | repertoire.py:165-168 | the key reported is the first iterated key outside the expected list; none is reported exactly when all are expected |
| Requests.ObjectKeys | repertoire.py:388-391 | for a dict body the key check passes exactly when every key is allowed and otherwise names the first bad key |
| Requests.StudyFilter | repertoire.py:170-200 | the filter part is accepted with value `x` exactly for `{"op": "=", "content": {"field": "study_id", "value": x}}` and no other content key; for dicts, each rejection answers once the checks before it pass: missing `content` or `op`, missing `field`, missing `value`, the first extra content key, a wrong field, an op other than `=` |
| Requests.ValidateRepertoireRequest | repertoire.py:164-202 | accepts exactly the well-formed study queries, returning the value; with no `filters` accepts with None; names the first unexpected key; once the keys pass and `filters` is present, answers as the filter checks do; early generation: only `filters` allowed, missing `filters` rejected, field `study.study_id`, extra content keys not rejected (app/repertoire.py:79-117) |
| Requests.ValidateRearrangementRequest | repertoire.py:384-447 | accepts exactly the well-formed queries with op `in` or `=`, returning the value; rejects in source order: unknown key, missing filters, no facets/format, bad facets, bad format; once the top-level checks pass, answers as the filter checks do; early generation: the same chain with only op `in` (app/repertoire.py:236-299) |
| Requests.CheckRearrangementHeader | repertoire.py:388-413 | the top-level checks pass, yielding the `filters` value, exactly for an object with only known keys, `filters`, and facets `repertoire_id` and/or format `tsv`; for dicts, each rejection answers once the checks before it pass: the first unknown key, missing `filters`, neither `facets` nor `format`, facets other than `repertoire_id`, format other than `tsv` |
| Requests.CheckRearrangementFilter | repertoire.py:415-447 | the `filters` checks pass with value `x` exactly for an object with `content` and `op` whose content object has `field` `repertoire_id` and a `value` `x`, and whose op is allowed; a `filters` that is not an object with `content` and `op` raises; otherwise each rejection answers once the checks before it pass: falsy content, missing `field`, missing `value`, a wrong field, an op not allowed |
| Requests.OperatorDecides | repertoire.py:443-447 | once the filter is well formed for the current generation, each generation accepts it exactly when its operator list holds the op, and otherwise rejects it for its operator (early list: app/repertoire.py:295-297) |
| Requests.EarlyAcceptsOnlyIn | app/repertoire.py:295-297 | a query the current validator accepts is accepted by the early one exactly when its op is `in`, and otherwise rejected for its operator |
| Catalog.IdsOf | repertoire.py:245-247 | the id list has one id per record, in document order, and exists exactly when every record has a `repertoire_id` |
| Catalog.Put | repertoire.py:248 | dict assignment keeps paths distinct, stores the entry, keeps other entries, and appends a new path at the end |
| Catalog.CreateRepertoireMap | repertoire.py:235-248 | the build completes exactly when every listed study's document loads and every record has an id; complete or partial, the index has distinct paths and every entry maps a listed study's metadata path to the ids of that document |
| Catalog.BuildIndexed | repertoire.py:241-248 | every entry the loop records belongs to a listed study and lists the ids of that study's records |
| Catalog.BuildCompletes | repertoire.py:241-248 | from any study on, the loop completes exactly when every remaining study's document loads |
| Catalog.BuildFromLoads | repertoire.py:242-248 | a study whose document loads records its metadata path with its records' ids, and the loop moves on |
| Catalog.AbortKeepsPrefix | app.py:24-28 | when the build stops at the first study whose document fails, the index the server keeps is the complete build of the studies listed before it |
| Catalog.AbortedListsPrefix | repertoire.py:239-248 | for a listing of distinct names, that kept index holds one entry per study before the failing one, in listing order |
| Catalog.BuildIndexesEveryStudy | repertoire.py:239-248 | for a listing of distinct names a complete build has one entry per study, in listing order, holding the ids of its document |
| Catalog.AppendKeepsOrder | repertoire.py:239-248 | appending the next listed study's entry keeps the index in listing order, each entry listing its document's ids |
| Catalog.MetadataPathInjective | repertoire.py:241-242 | distinct study names give distinct metadata paths |
| Catalog.LastOwner | repertoire.py:103-107 | the entry found lists the id and no later entry does; none is found exactly when no entry lists it |
| Catalog.FindRepertoirePathById | repertoire.py:101-109 | returns the path of the last entry listing the id, None exactly when no entry lists it; the early generation's lookup is the same (app/repertoire.py:33-41) |
| Catalog.FirstWithId | repertoire.py:119-128 | returns the first record whose id matches; None exactly when every record has a different id; raises exactly when a record without `repertoire_id` comes before any match |
| Catalog.GetRepertoireInformation | repertoire.py:119-128 | raises exactly when the document does not load or the scan meets a record without `repertoire_id` first; None exactly when the document loads and every record has a different id; a record it returns is in the document and carries the id; the same in the early generation (app/repertoire.py:45-54) |
| Catalog.FilterRepertoiresByStudy | repertoire.py:205-211 | returns the records of the last selected document, loaded from its path, with no later document selected; a JSON null study value selects like no value; early generation: the substring test without the `None` case (app/repertoire.py:120-126) |
| Catalog.FilterByStudyFindsNothing | repertoire.py:205-211 | the filter returns None exactly when the index is empty or a usable study value selects no document |
| Catalog.FilterByStudyRaises | repertoire.py:205-219 | the filter raises exactly when the index is non-empty and the study value cannot be tested against a path, or some selected document fails to load |
| Catalog.NullStudySelectsAll | repertoire.py:208 | a JSON null study value (Python `None`) gives the same answer as no study value |
| Catalog.GetAllRepertoires | repertoire.py:214-231 | returns exactly when every indexed document loads, and then the records of every document, concatenated in index order |
| Catalog.AllRepertoiresMatchIndex | app/repertoire.py:140-165 | for an index that lists its documents, the ids of all repertoires are the concatenation of the index's id lists |
| Catalog.IdsOfAppend | repertoire.py:245-247 | the ids of two record lists concatenate |
| Catalog.FilterAllByStudy | repertoire.py:205-211 | corrected filter: every returned record comes from a selected document |
| Catalog.FilterAllWithoutStudyIsAll | repertoire.py:208 | corrected filter: without a study value it lists every repertoire |
| Catalog.FilterAllSelectsEveryMatch | repertoire.py:208-209 | corrected filter: the records of every document whose path contains the value, concatenated in index order |
| Catalog.FilterWithoutStudyDropsEarlierStudies | repertoire.py:205-211 | as written, two studies and no study value give only the second study's records |
| Catalog.CountsIn | repertoire.py:353-360 | raises exactly when some record lacks an id, or matches and has an unreadable count; every facet names the requested id |
| Catalog.CountsMatchRecords | repertoire.py:353-360 | one facet per matching record, in document order, each with that record's `int(rearrangements)` |
| Catalog.FacetsForId | repertoire.py:349-360 | for one requested id: raises exactly when a document listing the id fails to load or its records fail the count; otherwise each document listing the id contributes its facets for the id, in index order, and every facet names the id |
| Catalog.FacetsForIds | repertoire.py:348-361 | raises exactly when some requested id has a failing document; otherwise the facets of each requested id, in request order, each naming a requested id |
| Catalog.GetRearrangementsCount | repertoire.py:345-361 | a value that cannot be iterated raises; otherwise it raises exactly when a document listing one of the iterated ids fails, and answers the facets of each iterated id in turn; the early generation counts the same way (app/repertoire.py:198-213) |
| Catalog.UnknownIdCountsNothing | repertoire.py:349-350 | an id no entry lists contributes no facet |
| Catalog.CountsConcatenate | repertoire.py:348 | facets of a concatenated id list are the concatenated facets, in request order |
| Catalog.CountsComeFromOwner | repertoire.py:349-360 | an id held by one document is answered from that document's records |
| Catalog.FirstOwner | repertoire.py:367-368 | the entry found is the first listing the id |
| Catalog.LocateArtifact | repertoire.py:367-382 | a located file exists with its on-disk size and comes from the first entry listing the id; nothing is found when no entry lists the id or the id has no text form |
| Catalog.LocateFirstOwner | repertoire.py:367-380 | the first entry listing the id decides alone: its `<id>.tsv.gz` when that file exists, and "not found" otherwise, even when a later entry has the file |
| Catalog.GetRearrangementsFiles | repertoire.py:363-382 | a scalar is wrapped; only the first id of a list is used; an empty list raises exactly when the index is non-empty; the early generation looks the value up as given (app/repertoire.py:217-233) |
| Catalog.ArtifactPathOfEntry | repertoire.py:370 | replacing `metadata.json` in a metadata path names a file in the same directory |
| Catalog.LocatedBeside | repertoire.py:367-370 | a located file lies in the directory of the first owning document |
| Catalog.ArtifactBesideMetadata | repertoire.py:363-376 | for an index of the studies' `metadata.json` files in listing order, as a build yields, the file is `<id>.tsv.gz` in the directory of the first study listing the id |
| Ledger.Startup | madc.py:20-23 | the in-memory record starts at launch with nothing transferred; memory and file are coherent |
| Ledger.CheckDownloadLimit | repertoire.py:48-75 | allows exactly when more than 7 days passed since the recorded start, or at most `WEEKLY_LIMIT` bytes are recorded; leaves memory and file in sync; as written the record is unchanged |
| Ledger.RecordTransfer | repertoire.py:329-330 | the in-memory count grows by exactly the file size and is written to the file |
| Ledger.Step | repertoire.py:310-330 | after a request, memory and file agree; the recorded bytes grow by the served size exactly when allowed and a file was served |
| Ledger.StartNeverMoves | repertoire.py:58-66 | as written, the recorded window start never changes and the recorded bytes never decrease |
| Ledger.NeverDeniesAfterFirstWeek | repertoire.py:63-73 | as written, once a week has passed since the recorded start every check allows |
| Ledger.PersistedWindowFollowsClock | repertoire.py:63-66 | with the reset written back, the recorded window always started within a week of the latest request |
| Ledger.QuotaLapsesAfterFirstWeek | repertoire.py:58-73 | a concrete run where the code as written allows just after more than the limit was served, and the corrected ledger denies |

## Left out

- HTTP handling is not modelled: Flask routing, `request.content_length`, `get_json`, `Response`, and the mapping of outcomes to status codes. The handlers only compose the modelled functions.
- File I/O is replaced by parameters. Documents are the parsed values in `Catalog.Store`, and file sizes are naturals in `Catalog.Artifacts`. Reading and decompressing the `.tsv.gz` content is not modelled; the counted size is the on-disk, compressed size.
- `decode_datetime` and `DateTimeEncoder` are not modelled. Timestamps are integer microseconds, and the ISO-8601 round trip through the usage file is taken as exact.
- `filter_dict` (repertoire.py:273-279) is not modelled; nothing calls it.
- Concurrent requests racing on the usage file are not modelled; the model is sequential.
- `utils.py`, `app/utils.py`, `app/app.py`, `service.py` and `example.py` are not modelled. They are ingestion copying, bootstrap, a status endpoint and a client. Of `app.py`, only the caught exception around the build (app.py:24-28) is modelled.
- Configuration is modelled only through `WEEKLY_LIMIT` and the initial `USAGE` record.
- `FIRST_LOAD` and `USAGE_FILE_PATH` are not defined in madc.py, so as configured the rearrangement handler raises a KeyError before any check. The ledger assumes a deployment that defines both, with `FIRST_LOAD` true at start.
- Python's cross-type equality (`1 == True == 1.0`) and floating-point numbers are not modelled. JSON numbers are integers and value equality is structural, including dict member order.
- `Json.Display`: the f-string text of a list or dict id (its `repr`) is not modelled. `Catalog.LocateArtifact` treats such an id as having no file.
- `Text.ParseInt` accepts only an optional sign and ASCII digits. It does not accept the surrounding whitespace, underscores or non-ASCII digits that `int()` accepts.
- `Text.PathJoin` follows POSIX `os.path.join`. The Windows paths in the configuration are not modelled.
- The order of `os.listdir` is an input (`studies`). A non-directory entry in the studies directory is treated like a study whose metadata fails to load.
- A corrupt or unreadable usage file is not modelled.

## Findings

| source | as written | input that shows it | evidently intended | confidence | as-written member | corrected member |
|---|---|---|---|---|---|---|
| repertoire.py:58-66 | the weekly reset is applied to the copy loaded for the check and never written back, so the recorded start stays at the first week's start | no usage file at time 0; a file of `WEEKLY_LIMIT + 1` bytes served at 7 days + 1 µs; a check at 7 days + 2 µs is allowed | write the reset record back so that the limit applies to each week | not executed; high, the comment at line 63 states the intent | Ledger.QuotaLapsesAfterFirstWeek | Ledger.PersistedWindowFollowsClock |
| repertoire.py:205-211 | every matching document overwrites the result, so a query without a study filter (`study_id is None`) returns only the last document's records | two studies `s1` (repertoire A) and `s2` (repertoire B); `POST /repertoire` with only `fields` returns B alone, while the full listing is A, B | return the records of every matching document, in index order | not executed; high, the `study_id is None or` test exists only to select every document | Catalog.FilterWithoutStudyDropsEarlierStudies | Catalog.FilterAllByStudy |

=== FILE: catalog.dfy ===
/** The catalog index (`repertoire_map`) and every lookup over it, in both
    generations of the service: building the index from the per-study
    metadata documents, finding a repertoire's document, selecting a
    study's records, counting rearrangements, and locating the compressed
    rearrangement file of a repertoire. */
module Catalog {
  import opened Wrappers
  import opened Json
  import Text
  import Requests

  /** One entry of `repertoire_map`: a metadata document's path and the
      `repertoire_id` of each of its records, in document order. */
  datatype Entry = Entry(path: string, ids: seq<Value>)

  /** The index, in dict insertion order. */
  type Index = seq<Entry>

  /** The metadata documents on disk, by path, as `json.load` parses them. */
  type Store = map<string, Value>

  const MetadataName: string := "metadata.json"
  const ArtifactSuffix: string := ".tsv.gz"

  /** `os.path.join(os.path.join(root, study), 'metadata.json')`. */
  function MetadataPath(root: string, study: string): string
  {
    Text.PathJoin(Text.PathJoin(root, study), MetadataName)
  }

  /** `data["Repertoire"]` iterated; `None` when Python raises. */
  function Records(doc: Value): Option<seq<Value>>
  {
    match GetItem(doc, "Repertoire")
    case None => None
    case Some(list) => Iterate(list)
  }

  /** Opening, parsing and reading the records of the document at `path`;
      `None` when any step raises. */
  function Load(store: Store, path: string): Option<seq<Value>>
  {
    if path in store then Records(store[path]) else None
  }

  /** `[r["repertoire_id"] for r in records]`; `None` when a record has no id. */
  function IdsOf(records: seq<Value>): (r: Option<seq<Value>>)
    ensures r.Some? <==> forall i | 0 <= i < |records| :: GetItem(records[i], "repertoire_id").Some?
    ensures r.Some? ==> |r.value| == |records|
    ensures r.Some? ==> forall i | 0 <= i < |records| :: GetItem(records[i], "repertoire_id") == Some(r.value[i])
  {
    if |records| == 0 then Some([])
    else
      var head := GetItem(records[0], "repertoire_id");
      var rest := IdsOf(records[1..]);
      assert forall i | 1 <= i < |records| :: records[i] == records[1..][i - 1];
      if head.None? || rest.None? then None else Some([head.value] + rest.value)
  }

  predicate DistinctPaths(index: Index)
  {
    forall i, j | 0 <= i < j < |index| :: index[i].path != index[j].path
  }

  /** `repertoire_map[path] = ids`: a new key goes last, an existing key
      keeps its position and takes the new value. */
  function Put(index: Index, path: string, ids: seq<Value>): (r: Index)
    requires DistinctPaths(index)
    ensures DistinctPaths(r)
    ensures Entry(path, ids) in r
    ensures forall e | e in r :: e == Entry(path, ids) || (e in index && e.path != path)
    ensures (forall e | e in index :: e.path != path) ==> r == index + [Entry(path, ids)]
  {
    if |index| == 0 then [Entry(path, ids)]
    else
      var tail := index[1..];
      SplitDistinct(index);
      if index[0].path == path then
        ConsDistinct(Entry(path, ids), tail);
        [Entry(path, ids)] + tail
      else
        var rest := Put(tail, path, ids);
        ConsDistinct(index[0], rest);
        assert forall e | e in [index[0]] + rest :: e == index[0] || e in rest;
        assert index == [index[0]] + tail;
        assert (forall e | e in index :: e.path != path) ==>
          [index[0]] + rest == index + [Entry(path, ids)];
        [index[0]] + rest
  }

  /** The first entry's path occurs nowhere in the rest, which is distinct. */
  lemma SplitDistinct(index: Index)
    requires |index| > 0 && DistinctPaths(index)
    ensures DistinctPaths(index[1..])
    ensures forall e | e in index[1..] :: e in index && e.path != index[0].path
  {
    var tail := index[1..];
    forall e | e in tail ensures e in index && e.path != index[0].path {
      var k :| 0 <= k < |tail| && tail[k] == e;
      assert index[k + 1] == e;
    }
  }

  lemma ConsDistinct(head: Entry, rest: Index)
    requires DistinctPaths(rest)
    requires forall e | e in rest :: e.path != head.path
    ensures DistinctPaths([head] + rest)
  {
    var r := [head] + rest;
    forall i, j | 0 <= i < j < |r| ensures r[i].path != r[j].path {
      assert r[j] == rest[j - 1];
      assert r[j] in rest;
      if i > 0 {
        assert r[i] == rest[i - 1];
      }
    }
  }

  /** An entry the build can have produced: the metadata path of one of the
      listed studies, with the ids of that document's records. */
  predicate Indexed(root: string, studies: seq<string>, store: Store, e: Entry)
  {
    && (exists k | 0 <= k < |studies| :: e.path == MetadataPath(root, studies[k]))
    && Lists(store, e)
  }

  /** The entry lists exactly the ids of the records of its document. */
  predicate Lists(store: Store, e: Entry)
  {
    Load(store, e.path).Some? && IdsOf(Load(store, e.path).value) == Some(e.ids)
  }

  /** The outcome of `create_repertoire_map`: the finished index, or the
      part built before a document failed to load. The global dict is
      assigned before the loop, so that part is what the server keeps. */
  datatype Build = Built(index: Index) | Aborted(partial: Index)
  {
    /** The index the server is left with either way. */
    function Entries(): Index
    {
      if Built? then index else partial
    }
  }

  /** The study's `metadata.json` opens, parses, has a `Repertoire` list,
      and every record in it has a `repertoire_id`. */
  predicate StudyLoads(root: string, store: Store, study: string)
  {
    var records := Load(store, MetadataPath(root, study));
    records.Some? && IdsOf(records.value).Some?
  }

  /** `create_repertoire_map(root)` over the directory listing `studies`:
      it completes exactly when every study's document loads, and every
      entry it records, completed or not, belongs to a listed study and
      lists the ids of that study's records. */
  function CreateRepertoireMap(root: string, studies: seq<string>, store: Store): (r: Build)
    ensures DistinctPaths(r.Entries())
    ensures forall e | e in r.Entries() :: Indexed(root, studies, store, e)
    ensures r.Built? <==> forall j | 0 <= j < |studies| :: StudyLoads(root, store, studies[j])
  {
    BuildIndexed(root, studies, 0, store, []);
    BuildCompletes(root, studies, 0, store, []);
    BuildFrom(root, studies, 0, store, [])
  }

  /** The loop of `create_repertoire_map` from the `k`-th listed study on,
      with `acc` the entries recorded so far. */
  function BuildFrom(root: string, studies: seq<string>, k: nat, store: Store, acc: Index): (r: Build)
    requires k <= |studies| && DistinctPaths(acc)
    ensures DistinctPaths(r.Entries())
    decreases |studies| - k
  {
    if k == |studies| then Built(acc)
    else
      var path := MetadataPath(root, studies[k]);
      if !StudyLoads(root, store, studies[k]) then Aborted(acc)
      else BuildFrom(root, studies, k + 1, store, Put(acc, path, IdsOf(Load(store, path).value).value))
  }

  /** Every entry the loop records belongs to a listed study and lists the
      ids of that study's records. */
  lemma {:induction false} BuildIndexed(root: string, studies: seq<string>, k: nat, store: Store, acc: Index)
    requires k <= |studies| && DistinctPaths(acc)
    requires forall e | e in acc :: Indexed(root, studies, store, e)
    ensures forall e | e in BuildFrom(root, studies, k, store, acc).Entries() :: Indexed(root, studies, store, e)
    decreases |studies| - k
  {
    if k < |studies| && StudyLoads(root, store, studies[k]) {
      BuildFromLoads(root, studies, store, k, acc);
      var path := MetadataPath(root, studies[k]);
      BuildIndexed(root, studies, k + 1, store, Put(acc, path, IdsOf(Load(store, path).value).value));
    }
  }

  /** From study `k` on, the build completes exactly when every remaining
      study's document loads. */
  lemma {:induction false} BuildCompletes(root: string, studies: seq<string>, k: nat, store: Store, acc: Index)
    requires k <= |studies| && DistinctPaths(acc)
    ensures BuildFrom(root, studies, k, store, acc).Built? <==>
      forall j | k <= j < |studies| :: StudyLoads(root, store, studies[j])
    decreases |studies| - k
  {
    if k == |studies| {
      assert BuildFrom(root, studies, k, store, acc) == Built(acc);
    } else if !StudyLoads(root, store, studies[k]) {
      assert BuildFrom(root, studies, k, store, acc) == Aborted(acc);
      assert !(forall j | k <= j < |studies| :: StudyLoads(root, store, studies[j]));
    } else {
      var path := MetadataPath(root, studies[k]);
      var next := Put(acc, path, IdsOf(Load(store, path).value).value);
      assert BuildFrom(root, studies, k, store, acc) == BuildFrom(root, studies, k + 1, store, next);
      BuildCompletes(root, studies, k + 1, store, next);
      assert BuildFrom(root, studies, k, store, acc).Built? <==>
        forall j | k + 1 <= j < |studies| :: StudyLoads(root, store, studies[j]);
    }
  }

  /** Directory entries as `os.listdir` returns them: distinct, non-empty
      names with no separator. */
  predicate Listing(studies: seq<string>)
  {
    && (forall i | 0 <= i < |studies| :: |studies[i]| > 0 && '/' !in studies[i])
    && (forall i, j | 0 <= i < j < |studies| :: studies[i] != studies[j])
  }

  lemma MetadataPathInjective(root: string, a: string, b: string)
    requires |a| > 0 && '/' !in a && |b| > 0 && '/' !in b
    requires MetadataPath(root, a) == MetadataPath(root, b)
    ensures a == b
  {
    var p := Text.DirPrefix(root);
    var tail := "/" + MetadataName;
    StudyDirectory(root, a);
    StudyDirectory(root, b);
    CancelRight(p + a, p + b, tail);
    CancelLeft(p, a, b);
  }

  /** A study's metadata path is the root's directory prefix, the study name,
      a separator and `metadata.json`. */
  lemma StudyDirectory(root: string, study: string)
    requires |study| > 0 && '/' !in study
    ensures MetadataPath(root, study) == Text.DirPrefix(root) + study + ("/" + MetadataName)
  {
    var p := Text.DirPrefix(root);
    var dir := Text.PathJoin(root, study);
    assert study[0] != '/';
    Text.JoinRelative(root, study);
    assert dir[|dir| - 1] == study[|study| - 1];
    MetadataNameRelative();
    var mp := Text.PathJoin(dir, MetadataName);
    assert mp == dir + "/" + MetadataName;
    assert dir + "/" + MetadataName == p + study + ("/" + MetadataName);
  }

  lemma CancelRight(x: string, y: string, t: string)
    requires x + t == y + t
    ensures x == y
  {
    assert |x| == |y|;
    assert x == (x + t)[..|x|];
    assert y == (y + t)[..|y|];
  }

  lemma CancelLeft(p: string, x: string, y: string)
    requires p + x == p + y
    ensures x == y
  {
    assert x == (p + x)[|p|..];
    assert y == (p + y)[|p|..];
  }

  /** With a directory listing of distinct study names, a complete build
      holds one entry per study, in listing order, mapping the study's
      `metadata.json` to the ids of its records in document order. */
  lemma {:induction false} BuildIndexesEveryStudy(root: string, studies: seq<string>, store: Store)
    requires Listing(studies)
    requires CreateRepertoireMap(root, studies, store).Built?
    ensures var idx := CreateRepertoireMap(root, studies, store).index;
      && |idx| == |studies|
      && forall i | 0 <= i < |studies| ::
           && idx[i].path == MetadataPath(root, studies[i])
           && Lists(store, idx[i])
  {
    BuildStep(root, studies, 0, store, []);
  }

  lemma {:induction false} BuildStep(root: string, studies: seq<string>, k: nat, store: Store, acc: Index)
    requires Listing(studies) && k <= |studies|
    requires DistinctPaths(acc) && |acc| == k
    requires forall i | 0 <= i < k :: acc[i].path == MetadataPath(root, studies[i])
    requires forall i | 0 <= i < k :: Lists(store, acc[i])
    requires BuildFrom(root, studies, k, store, acc).Built?
    ensures var idx := BuildFrom(root, studies, k, store, acc).index;
      && |idx| == |studies|
      && forall i | 0 <= i < |studies| ::
           && idx[i].path == MetadataPath(root, studies[i])
           && Lists(store, idx[i])
    decreases |studies| - k
  {
    if k < |studies| {
      var path := MetadataPath(root, studies[k]);
      var ids := IdsOf(Load(store, path).value).value;
      FreshPath(root, studies, k, acc);
      var next := acc + [Entry(path, ids)];
      assert Put(acc, path, ids) == next;
      assert BuildFrom(root, studies, k, store, acc) == BuildFrom(root, studies, k + 1, store, next);
      AppendKeepsOrder(root, studies, store, acc, Entry(path, ids));
      BuildStep(root, studies, k + 1, store, next);
    }
  }

  /** Appending the entry of the next listed study keeps the index in
      listing order, each entry listing the ids of its document. */
  lemma AppendKeepsOrder(root: string, studies: seq<string>, store: Store, acc: Index, e: Entry)
    requires |acc| < |studies|
    requires forall i | 0 <= i < |acc| :: acc[i].path == MetadataPath(root, studies[i])
    requires forall i | 0 <= i < |acc| :: Lists(store, acc[i])
    requires e.path == MetadataPath(root, studies[|acc|]) && Lists(store, e)
    ensures forall i | 0 <= i <= |acc| :: (acc + [e])[i].path == MetadataPath(root, studies[i])
    ensures forall i | 0 <= i <= |acc| :: Lists(store, (acc + [e])[i])
  {
    forall i | 0 <= i <= |acc| ensures (acc + [e])[i] == if i < |acc| then acc[i] else e { }
  }

  /** When the build stops at study `k`, the first whose document does not
      load, the index it leaves behind is the complete build of the studies
      listed before `k`. */
  lemma AbortKeepsPrefix(root: string, studies: seq<string>, store: Store, k: nat)
    requires k < |studies| && !StudyLoads(root, store, studies[k])
    requires forall j | 0 <= j < k :: StudyLoads(root, store, studies[j])
    ensures CreateRepertoireMap(root, studies[..k], store).Built?
    ensures CreateRepertoireMap(root, studies, store) ==
      Aborted(CreateRepertoireMap(root, studies[..k], store).index)
  {
    var prefix := studies[..k];
    var j, acc := 0, [];
    while j < k
      invariant j <= k && DistinctPaths(acc)
      invariant BuildFrom(root, studies, 0, store, []) == BuildFrom(root, studies, j, store, acc)
      invariant BuildFrom(root, prefix, 0, store, []) == BuildFrom(root, prefix, j, store, acc)
    {
      assert prefix[j] == studies[j];
      BuildFromLoads(root, studies, store, j, acc);
      BuildFromLoads(root, prefix, store, j, acc);
      var path := MetadataPath(root, studies[j]);
      j, acc := j + 1, Put(acc, path, IdsOf(Load(store, path).value).value);
    }
    assert BuildFrom(root, prefix, k, store, acc) == Built(acc);
    assert BuildFrom(root, studies, k, store, acc) == Aborted(acc);
  }

  /** A study whose document loads adds its entry and the build moves on;
      the entry belongs to that study and lists its records' ids. */
  lemma BuildFromLoads(root: string, studies: seq<string>, store: Store, j: nat, acc: Index)
    requires j < |studies| && StudyLoads(root, store, studies[j]) && DistinctPaths(acc)
    ensures var path := MetadataPath(root, studies[j]);
      var ids := IdsOf(Load(store, path).value).value;
      && Indexed(root, studies, store, Entry(path, ids))
      && BuildFrom(root, studies, j, store, acc) == BuildFrom(root, studies, j + 1, store, Put(acc, path, ids))
  {
  }

  /** Under a directory listing, the index left by an aborted build holds
      one entry per study before the failing one, in listing order. */
  lemma AbortedListsPrefix(root: string, studies: seq<string>, store: Store, k: nat)
    requires Listing(studies)
    requires k < |studies| && !StudyLoads(root, store, studies[k])
    requires forall j | 0 <= j < k :: StudyLoads(root, store, studies[j])
    ensures CreateRepertoireMap(root, studies, store).Aborted?
    ensures var idx := CreateRepertoireMap(root, studies, store).partial;
      && |idx| == k
      && forall i | 0 <= i < k ::
           && idx[i].path == MetadataPath(root, studies[i])
           && Lists(store, idx[i])
  {
    AbortKeepsPrefix(root, studies, store, k);
    var prefix := studies[..k];
    PrefixListing(studies, k);
    BuildIndexesEveryStudy(root, prefix, store);
    var idx := CreateRepertoireMap(root, prefix, store).index;
    forall i | 0 <= i < k ensures idx[i].path == MetadataPath(root, studies[i]) {
      assert prefix[i] == studies[i];
    }
  }

  lemma PrefixListing(studies: seq<string>, k: nat)
    requires Listing(studies) && k <= |studies|
    ensures Listing(studies[..k])
  {
    var prefix := studies[..k];
    assert forall i | 0 <= i < k :: prefix[i] == studies[i];
  }

  /** The metadata path of the next listed study is not yet in the index. */
  lemma FreshPath(root: string, studies: seq<string>, k: nat, acc: Index)
    requires Listing(studies) && k < |studies| && |acc| == k
    requires forall i | 0 <= i < k :: acc[i].path == MetadataPath(root, studies[i])
    ensures forall e | e in acc :: e.path != MetadataPath(root, studies[k])
  {
    forall e | e in acc ensures e.path != MetadataPath(root, studies[k]) {
      var i :| 0 <= i < k && acc[i] == e;
      if e.path == MetadataPath(root, studies[k]) {
        MetadataPathInjective(root, studies[i], studies[k]);
      }
    }
  }

  /** Index of the last entry listing `id`: `find_repertoire_path_by_id`
      walks every entry and keeps overwriting its answer, so the last
      match wins. */
  function LastOwner(index: Index, id: Value): (r: Option<nat>)
    ensures r.None? <==> forall j | 0 <= j < |index| :: id !in index[j].ids
    ensures r.Some? ==> r.value < |index| && id in index[r.value].ids
    ensures r.Some? ==> forall j | r.value < j < |index| :: id !in index[j].ids
    decreases |index|
  {
    if |index| == 0 then None
    else if id in index[|index| - 1].ids then Some(|index| - 1)
    else LastOwner(index[..|index| - 1], id)
  }

  /** `find_repertoire_path_by_id(repertoire_id)` (the same in both generations). */
  function FindRepertoirePathById(index: Index, id: string): (r: Option<string>)
    ensures r.None? <==> forall j | 0 <= j < |index| :: Str(id) !in index[j].ids
    ensures r.Some? ==> exists j | 0 <= j < |index| ::
      && index[j].path == r.value && Str(id) in index[j].ids
      && forall k | j < k < |index| :: Str(id) !in index[k].ids
  {
    match LastOwner(index, Str(id))
    case None => None
    case Some(j) => Some(index[j].path)
  }

  /** Where the loop of `get_repertoire_information` stops: at the first
      record without a `repertoire_id` (the lookup raises) or carrying `id`
      (it breaks); `|records|` when it runs through. */
  function StopIndex(records: seq<Value>, id: Value): (k: nat)
    ensures k <= |records|
    ensures forall j | 0 <= j < k ::
      GetItem(records[j], "repertoire_id").Some? && GetItem(records[j], "repertoire_id") != Some(id)
    ensures k < |records| ==>
      GetItem(records[k], "repertoire_id").None? || GetItem(records[k], "repertoire_id") == Some(id)
  {
    if |records| == 0 then 0
    else
      match GetItem(records[0], "repertoire_id")
      case None => 0
      case Some(x) =>
        if x == id then 0
        else
          var k := StopIndex(records[1..], id);
          assert forall j | 1 <= j < |records| :: records[j] == records[1..][j - 1];
          k + 1
  }

  /** `get_repertoire_information(path, repertoire_id)`: the first record of
      the document with that id, `None` if there is none; a record without
      a `repertoire_id` met before it raises. */
  function FirstWithId(records: seq<Value>, id: Value): (r: Outcome<Option<Value>>)
    ensures r == Returned(None) <==> forall i | 0 <= i < |records| ::
      GetItem(records[i], "repertoire_id").Some? && GetItem(records[i], "repertoire_id") != Some(id)
    ensures r.Returned? && r.value.Some? ==> exists i | 0 <= i < |records| ::
      && records[i] == r.value.value && GetItem(records[i], "repertoire_id") == Some(id)
      && forall j | 0 <= j < i :: GetItem(records[j], "repertoire_id").Some? && GetItem(records[j], "repertoire_id") != Some(id)
    ensures r.Raised? <==> exists i | 0 <= i < |records| ::
      && GetItem(records[i], "repertoire_id").None?
      && forall j | 0 <= j < i :: GetItem(records[j], "repertoire_id") != Some(id)
  {
    var k := StopIndex(records, id);
    if k == |records| then Returned(None)
    else if GetItem(records[k], "repertoire_id").None? then Raised
    else Returned(Some(records[k]))
  }

  /** `get_repertoire_information(metadata_path, repertoire_id)` with the
      document read from disk: a document that does not load raises;
      otherwise the answer is the first record carrying the id. */
  function GetRepertoireInformation(store: Store, path: string, id: string): (r: Outcome<Option<Value>>)
    ensures r.Raised? <==> Load(store, path).None? || FirstWithId(Load(store, path).value, Str(id)).Raised?
    ensures r == Returned(None) <==> Load(store, path).Some? && forall rec | rec in Load(store, path).value ::
      GetItem(rec, "repertoire_id").Some? && GetItem(rec, "repertoire_id") != Some(Str(id))
    ensures r.Returned? && r.value.Some? ==>
      r.value.value in Load(store, path).value && GetItem(r.value.value, "repertoire_id") == Some(Str(id))
  {
    match Load(store, path)
    case None => Raised
    case Some(records) => FirstWithId(records, Str(id))
  }

  /** `study_id in metadata_path` (with the current generation's
      `study_id is None or` in front); `None` when Python raises a TypeError
      because the study value is not a string. A JSON `null` value is
      Python's `None`, the same as no filter at all. */
  function Selects(v: Requests.Variant, study: Option<Value>, path: string): Option<bool>
  {
    match study
    case None => if v == Requests.Current then Some(true) else None
    case Some(Null) => if v == Requests.Current then Some(true) else None
    case Some(Str(s)) => Some(Text.IsSubstring(s, path))
    case Some(_) => None
  }

  /** `filter_repertoires_by_study(study_id)`: the records of the LAST
      document the study value selects, `None` when none does. Every selected
      document is read on the way, so any of them failing to load raises. */
  function FilterRepertoiresByStudy(v: Requests.Variant, index: Index, store: Store, study: Option<Value>)
    : (r: Outcome<Option<seq<Value>>>)
    ensures r.Returned? && r.value.Some? ==> exists j | 0 <= j < |index| ::
      && Selects(v, study, index[j].path) == Some(true) && Load(store, index[j].path) == r.value
      && forall k | j < k < |index| :: Selects(v, study, index[k].path) == Some(false)
    decreases |index|
  {
    if |index| == 0 then Returned(None)
    else
      var front := index[..|index| - 1];
      var earlier := FilterRepertoiresByStudy(v, front, store, study);
      var last := index[|index| - 1];
      match Selects(v, study, last.path)
      case None => Raised
      case Some(false) => earlier
      case Some(true) =>
        if earlier.Raised? then Raised
        else
          match Load(store, last.path)
          case None => Raised
          case Some(records) => Returned(Some(records))
  }

  /** The study filter finds nothing exactly when the index is empty or the
      study value, of a usable type, selects no document. */
  lemma {:induction false} FilterByStudyFindsNothing(v: Requests.Variant, index: Index, store: Store, study: Option<Value>)
    ensures FilterRepertoiresByStudy(v, index, store, study) == Returned(None) <==>
      (|index| == 0 || (Selects(v, study, "").Some? && forall j | 0 <= j < |index| :: Selects(v, study, index[j].path) == Some(false)))
    decreases |index|
  {
    if |index| > 0 {
      var r := FilterRepertoiresByStudy(v, index, store, study);
      var front := index[..|index| - 1];
      var last := index[|index| - 1];
      var sel := Selects(v, study, last.path);
      assert sel.Some? <==> Selects(v, study, "").Some?;
      if sel == Some(false) {
        FilterByStudyFindsNothing(v, front, store, study);
        assert r == FilterRepertoiresByStudy(v, front, store, study);
        assert forall j | 0 <= j < |front| :: front[j] == index[j];
      } else {
        assert r != Returned(None);
        assert Selects(v, study, index[|index| - 1].path) != Some(false);
      }
    }
  }

  /** The study filter raises exactly on a study value of an unusable type
      (with at least one document to test it against) or when a selected
      document cannot be read. */
  lemma {:induction false} FilterByStudyRaises(v: Requests.Variant, index: Index, store: Store, study: Option<Value>)
    ensures FilterRepertoiresByStudy(v, index, store, study).Raised? <==>
      || (|index| > 0 && Selects(v, study, "").None?)
      || exists j | 0 <= j < |index| :: Selects(v, study, index[j].path) == Some(true) && Load(store, index[j].path).None?
    decreases |index|
  {
    if |index| > 0 {
      var r := FilterRepertoiresByStudy(v, index, store, study);
      var front := index[..|index| - 1];
      var last := index[|index| - 1];
      var sel := Selects(v, study, last.path);
      assert sel.Some? <==> Selects(v, study, "").Some?;
      FilterByStudyRaises(v, front, store, study);
      assert forall j | 0 <= j < |front| :: front[j] == index[j];
      if sel == Some(false) {
        assert r == FilterRepertoiresByStudy(v, front, store, study);
      } else if sel == Some(true) {
        assert r.Raised? <==> FilterRepertoiresByStudy(v, front, store, study).Raised? || Load(store, last.path).None?;
      }
    }
  }

  /** A `null` study value filters like no study filter at all. */
  lemma {:induction false} NullStudySelectsAll(v: Requests.Variant, index: Index, store: Store)
    ensures FilterRepertoiresByStudy(v, index, store, Some(Null)) == FilterRepertoiresByStudy(v, index, store, None)
    decreases |index|
  {
    if |index| > 0 {
      NullStudySelectsAll(v, index[..|index| - 1], store);
    }
  }

  /** `get_all_repertoires()`: every document's records, in index order. */
  function GetAllRepertoires(index: Index, store: Store): (r: Outcome<seq<Value>>)
    ensures r.Returned? <==> AllLoad(index, store)
    ensures r.Returned? ==> r.value == Flatten(RecordLists(index, store))
    decreases |index|
  {
    if |index| == 0 then Returned([])
    else
      var rest := GetAllRepertoires(index[1..], store);
      assert forall j | 1 <= j < |index| :: index[j] == index[1..][j - 1];
      match Load(store, index[0].path)
      case None => Raised
      case Some(records) =>
        if rest.Raised? then Raised
        else
          assert RecordLists(index, store) == [records] + RecordLists(index[1..], store);
          Returned(records + rest.value)
  }

  /** Every document of the index can be read. */
  predicate AllLoad(index: Index, store: Store)
  {
    forall j | 0 <= j < |index| :: Load(store, index[j].path).Some?
  }

  /** The records of each document, in index order. */
  function RecordLists(index: Index, store: Store): (r: seq<seq<Value>>)
    requires AllLoad(index, store)
    ensures |r| == |index|
    ensures forall j | 0 <= j < |index| :: r[j] == Load(store, index[j].path).value
  {
    if |index| == 0 then []
    else
      assert forall j | 1 <= j < |index| :: index[j] == index[1..][j - 1];
      [Load(store, index[0].path).value] + RecordLists(index[1..], store)
  }

  /** Every entry lists the ids of its document as it is on disk. */
  predicate UpToDate(index: Index, store: Store)
  {
    forall j | 0 <= j < |index| :: Lists(store, index[j])
  }

  /** Every id in the index names a record: listing everything yields exactly
      the indexed ids, document after document, one record per id. */
  lemma {:induction false} AllRepertoiresMatchIndex(index: Index, store: Store)
    requires UpToDate(index, store)
    ensures GetAllRepertoires(index, store).Returned?
    ensures IdsOf(GetAllRepertoires(index, store).value) == Some(Flatten(IdLists(index)))
    decreases |index|
  {
    if |index| > 0 {
      var tail := index[1..];
      assert UpToDate(tail, store) by {
        forall j | 0 <= j < |tail| ensures Lists(store, tail[j]) {
          assert tail[j] == index[j + 1];
        }
      }
      AllRepertoiresMatchIndex(tail, store);
      assert Lists(store, index[0]);
      var records := Load(store, index[0].path).value;
      var rest := GetAllRepertoires(tail, store).value;
      assert GetAllRepertoires(index, store) == Returned(records + rest);
      IdsOfAppend(records, rest);
      assert Flatten(IdLists(index)) == index[0].ids + Flatten(IdLists(tail));
    }
  }

  /** The id lists of the entries, in index order. */
  function IdLists(index: Index): (r: seq<seq<Value>>)
    ensures |r| == |index|
    ensures forall j | 0 <= j < |index| :: r[j] == index[j].ids
  {
    if |index| == 0 then [] else [index[0].ids] + IdLists(index[1..])
  }

  lemma {:induction false} IdsOfAppend(a: seq<Value>, b: seq<Value>)
    requires IdsOf(a).Some? && IdsOf(b).Some?
    ensures IdsOf(a + b) == Some(IdsOf(a).value + IdsOf(b).value)
  {
    var r := IdsOf(a + b);
    assert forall i | 0 <= i < |a + b| :: GetItem((a + b)[i], "repertoire_id").Some? by {
      forall i | 0 <= i < |a + b| ensures GetItem((a + b)[i], "repertoire_id").Some? {
        if i < |a| { assert (a + b)[i] == a[i]; } else { assert (a + b)[i] == b[i - |a|]; }
      }
    }
    var expected := IdsOf(a).value + IdsOf(b).value;
    assert r.Some? && |r.value| == |expected|;
    forall i | 0 <= i < |a + b| ensures r.value[i] == expected[i] {
      if i < |a| {
        assert (a + b)[i] == a[i];
        assert GetItem(a[i], "repertoire_id") == Some(IdsOf(a).value[i]);
      } else {
        assert (a + b)[i] == b[i - |a|];
        assert GetItem(b[i - |a|], "repertoire_id") == Some(IdsOf(b).value[i - |a|]);
      }
    }
    assert r.value == expected;
  }

  /** The records of every document the study value selects, in index order:
      what the study filter is evidently meant to return. */
  function FilterAllByStudy(v: Requests.Variant, index: Index, store: Store, study: Option<Value>): (r: Outcome<seq<Value>>)
    ensures r.Returned? ==> forall x | x in r.value :: exists j | 0 <= j < |index| ::
      && Selects(v, study, index[j].path) == Some(true)
      && Load(store, index[j].path).Some? && x in Load(store, index[j].path).value
    ensures (exists j | 0 <= j < |index| :: Selects(v, study, index[j].path).None?) ==> r.Raised?
    decreases |index|
  {
    if |index| == 0 then Returned([])
    else
      var rest := FilterAllByStudy(v, index[1..], store, study);
      assert forall j | 1 <= j < |index| :: index[j] == index[1..][j - 1];
      match Selects(v, study, index[0].path)
      case None => Raised
      case Some(false) => rest
      case Some(true) =>
        match Load(store, index[0].path)
        case None => Raised
        case Some(records) => if rest.Raised? then Raised else Returned(records + rest.value)
  }

  /** Without a study value the corrected filter lists every repertoire. */
  lemma {:induction false} FilterAllWithoutStudyIsAll(index: Index, store: Store)
    ensures FilterAllByStudy(Requests.Current, index, store, None) == GetAllRepertoires(index, store)
    decreases |index|
  {
    if |index| > 0 {
      FilterAllWithoutStudyIsAll(index[1..], store);
    }
  }

  /** The corrected filter returns the records of every selected document,
      and no record from an unselected one. */
  lemma {:induction false} FilterAllSelectsEveryMatch(v: Requests.Variant, index: Index, store: Store, s: string)
    requires AllLoad(index, store)
    ensures FilterAllByStudy(v, index, store, Some(Str(s))) == Returned(Flatten(SelectedLists(index, store, s)))
    decreases |index|
  {
    if |index| > 0 {
      var parts := SelectedLists(index, store, s);
      FilterAllSelectsEveryMatch(v, index[1..], store, s);
      assert parts[1..] == SelectedLists(index[1..], store, s);
      var rest := FilterAllByStudy(v, index[1..], store, Some(Str(s)));
      assert Selects(v, Some(Str(s)), index[0].path) == Some(Text.IsSubstring(s, index[0].path));
      if Text.IsSubstring(s, index[0].path) {
        assert FilterAllByStudy(v, index, store, Some(Str(s))) == Returned(Load(store, index[0].path).value + rest.value);
      } else {
        assert [] + Flatten(parts[1..]) == Flatten(parts[1..]);
        assert FilterAllByStudy(v, index, store, Some(Str(s))) == rest;
      }
    }
  }

  /** The records of each document whose path contains `s`, and nothing for
      the others, in index order. */
  function SelectedLists(index: Index, store: Store, s: string): (r: seq<seq<Value>>)
    requires AllLoad(index, store)
    ensures |r| == |index|
    ensures forall j | 0 <= j < |index| ::
      r[j] == if Text.IsSubstring(s, index[j].path) then Load(store, index[j].path).value else []
  {
    if |index| == 0 then []
    else
      assert forall j | 1 <= j < |index| :: index[j] == index[1..][j - 1];
      [if Text.IsSubstring(s, index[0].path) then Load(store, index[0].path).value else []]
        + SelectedLists(index[1..], store, s)
  }

  /** As written, a repertoire list query without a study filter selects
      every document and keeps only the last one's records: with two
      studies, the first study's repertoires are dropped. */
  lemma FilterWithoutStudyDropsEarlierStudies()
    ensures
      var a := Obj([Member("repertoire_id", Str("A"))]);
      var b := Obj([Member("repertoire_id", Str("B"))]);
      var store := map["s1/metadata.json" := Obj([Member("Repertoire", Arr([a]))]),
                       "s2/metadata.json" := Obj([Member("Repertoire", Arr([b]))])];
      var index := [Entry("s1/metadata.json", [Str("A")]), Entry("s2/metadata.json", [Str("B")])];
      && FilterRepertoiresByStudy(Requests.Current, index, store, None) == Returned(Some([b]))
      && GetAllRepertoires(index, store) == Returned([a, b])
  {
    var a := Obj([Member("repertoire_id", Str("A"))]);
    var b := Obj([Member("repertoire_id", Str("B"))]);
    var store := map["s1/metadata.json" := Obj([Member("Repertoire", Arr([a]))]),
                     "s2/metadata.json" := Obj([Member("Repertoire", Arr([b]))])];
    var index := [Entry("s1/metadata.json", [Str("A")]), Entry("s2/metadata.json", [Str("B")])];
    assert Load(store, "s1/metadata.json") == Some([a]) by {
      assert GetItem(store["s1/metadata.json"], "Repertoire") == Some(Arr([a]));
    }
    assert Load(store, "s2/metadata.json") == Some([b]) by {
      assert GetItem(store["s2/metadata.json"], "Repertoire") == Some(Arr([b]));
    }
    assert index[..1] == [index[0]];
    var tail := index[1..];
    assert tail[0].path == "s2/metadata.json" && tail[1..] == [];
    assert GetAllRepertoires(tail[1..], store) == Returned([]);
    assert [b] + [] == [b];
    assert GetAllRepertoires(tail, store) == Returned([b]);
    assert index[0].path == "s1/metadata.json";
    assert [a] + [b] == [a, b];
    assert GetAllRepertoires(index, store) == Returned([a] + [b]);
    assert index[1..] == [index[1]];
  }

  /** One element of the `Facet` list: a requested id and the `rearrangements`
      count of a record carrying it. */
  datatype Facet = Facet(repertoireId: Value, count: int)

  /** A record the counting loop raises on while looking for `id`: it has no
      `repertoire_id`, or it matches and its `rearrangements` is missing or
      not an integer. */
  predicate BadRecord(rec: Value, id: Value)
  {
    match GetItem(rec, "repertoire_id")
    case None => true
    case Some(x) =>
      x == id && (GetItem(rec, "rearrangements").None? || ToInt(GetItem(rec, "rearrangements").value).None?)
  }

  /** A record carrying `id` whose count can be read. */
  predicate Counts(rec: Value, id: Value)
  {
    GetItem(rec, "repertoire_id") == Some(id) && !BadRecord(rec, id)
  }

  /** The count `int(rec["rearrangements"])` of a record that `Counts`. */
  function CountOf(rec: Value, id: Value): int
    requires Counts(rec, id)
  {
    ToInt(GetItem(rec, "rearrangements").value).value
  }

  /** The records of a document that carry `id`, in document order. */
  function WithId(records: seq<Value>, id: Value): (r: seq<Value>)
    ensures |r| <= |records|
  {
    if |records| == 0 then []
    else (if GetItem(records[0], "repertoire_id") == Some(id) then [records[0]] else []) + WithId(records[1..], id)
  }

  /** The facets one document yields for one requested id: one per record
      carrying the id, in document order (see `CountsMatchRecords`). */
  function CountsIn(records: seq<Value>, id: Value): (r: Outcome<seq<Facet>>)
    ensures r.Raised? <==> exists i | 0 <= i < |records| :: BadRecord(records[i], id)
    ensures r.Returned? ==> forall f | f in r.value :: f.repertoireId == id
  {
    if |records| == 0 then Returned([])
    else
      var rest := CountsIn(records[1..], id);
      assert forall i | 1 <= i < |records| :: records[i] == records[1..][i - 1];
      if BadRecord(records[0], id) then Raised
      else if GetItem(records[0], "repertoire_id") != Some(id) then rest
      else if rest.Raised? then Raised
      else Returned([Facet(id, CountOf(records[0], id))] + rest.value)
  }

  /** When no record is bad, the facets are exactly the records carrying the
      id, in order, each with its own count. */
  lemma {:induction false} CountsMatchRecords(records: seq<Value>, id: Value)
    requires CountsIn(records, id).Returned?
    ensures var fs := CountsIn(records, id).value;
      var rs := WithId(records, id);
      && |fs| == |rs|
      && forall i | 0 <= i < |rs| :: Counts(rs[i], id) && fs[i] == Facet(id, CountOf(rs[i], id))
  {
    if |records| > 0 {
      assert !BadRecord(records[0], id);
      CountsMatchRecords(records[1..], id);
      var fs := CountsIn(records, id).value;
      var rs := WithId(records, id);
      var tail := CountsIn(records[1..], id).value;
      var rsTail := WithId(records[1..], id);
      if GetItem(records[0], "repertoire_id") == Some(id) {
        assert rs == [records[0]] + rsTail;
        assert fs == [Facet(id, CountOf(records[0], id))] + tail;
        forall i | 0 <= i < |rs| ensures Counts(rs[i], id) && fs[i] == Facet(id, CountOf(rs[i], id)) {
          if i > 0 {
            assert rs[i] == rsTail[i - 1] && fs[i] == tail[i - 1];
          }
        }
      } else {
        assert rs == WithId(records[1..], id);
        assert fs == tail;
      }
    }
  }

  /** `Returned(a + b)` when both calls return, else `Raised`: two loops run
      one after the other, appending to the same list. */
  function Then<T>(a: Outcome<seq<T>>, b: Outcome<seq<T>>): (r: Outcome<seq<T>>)
    ensures r.Returned? <==> a.Returned? && b.Returned?
    ensures r.Returned? ==> r.value == a.value + b.value
  {
    if a.Raised? || b.Raised? then Raised else Returned(a.value + b.value)
  }

  lemma ThenAssociative<T>(a: Outcome<seq<T>>, b: Outcome<seq<T>>, c: Outcome<seq<T>>)
    ensures Then(Then(a, b), c) == Then(a, Then(b, c))
  {
    if a.Returned? && b.Returned? && c.Returned? {
      assert a.value + b.value + c.value == a.value + (b.value + c.value);
    }
  }

  /** An entry listing `id` whose document cannot be read, or whose records
      make the counting loop raise. */
  predicate OwnerFails(store: Store, e: Entry, id: Value)
  {
    id in e.ids && (Load(store, e.path).None? || CountsIn(Load(store, e.path).value, id).Raised?)
  }

  /** Some entry listing `id` fails. */
  predicate SomeOwnerFails(index: Index, store: Store, id: Value)
  {
    exists j | 0 <= j < |index| :: OwnerFails(store, index[j], id)
  }

  /** The facets one entry contributes for `id`: none unless it lists the id,
      otherwise one per record of its document carrying the id. */
  function OwnerFacets(store: Store, e: Entry, id: Value): seq<Facet>
    requires !OwnerFails(store, e, id)
  {
    if id !in e.ids then [] else CountsIn(Load(store, e.path).value, id).value
  }

  /** The contributions of the entries for `id`, in index order. */
  function FacetLists(index: Index, store: Store, id: Value): (r: seq<seq<Facet>>)
    requires !SomeOwnerFails(index, store, id)
    ensures |r| == |index|
    ensures forall j | 0 <= j < |index| :: r[j] == OwnerFacets(store, index[j], id)
  {
    if |index| == 0 then []
    else
      assert forall j | 1 <= j < |index| :: index[j] == index[1..][j - 1];
      [OwnerFacets(store, index[0], id)] + FacetLists(index[1..], store, id)
  }

  /** The inner loop of `get_rearrangements_count` for one requested id: every
      document whose entry lists the id, in index order. It raises exactly
      when one of those documents fails; otherwise its facets are the
      contributions of all entries listing the id, concatenated in index
      order, so an id listed by several documents is counted in each. */
  function FacetsForId(index: Index, store: Store, id: Value): (r: Outcome<seq<Facet>>)
    ensures r.Returned? ==> forall f | f in r.value :: f.repertoireId == id
    ensures r.Raised? <==> SomeOwnerFails(index, store, id)
    ensures r.Returned? ==> r.value == Flatten(FacetLists(index, store, id))
    decreases |index|
  {
    if |index| == 0 then Returned([])
    else
      var here :=
        if id !in index[0].ids then Returned([])
        else match Load(store, index[0].path)
          case None => Raised
          case Some(records) => CountsIn(records, id);
      var rest := FacetsForId(index[1..], store, id);
      assert forall j | 1 <= j < |index| :: index[j] == index[1..][j - 1];
      assert here.Raised? <==> OwnerFails(store, index[0], id);
      assert here.Returned? ==> here.value == OwnerFacets(store, index[0], id);
      Then(here, rest)
  }

  /** The contributions of the requested ids, in request order. */
  function IdFacetLists(index: Index, store: Store, ids: seq<Value>): (r: seq<seq<Facet>>)
    requires forall i | 0 <= i < |ids| :: !SomeOwnerFails(index, store, ids[i])
    ensures |r| == |ids|
    ensures forall i | 0 <= i < |ids| :: r[i] == Flatten(FacetLists(index, store, ids[i]))
  {
    if |ids| == 0 then []
    else
      assert forall i | 1 <= i < |ids| :: ids[i] == ids[1..][i - 1];
      [Flatten(FacetLists(index, store, ids[0]))] + IdFacetLists(index, store, ids[1..])
  }

  /** The outer loop of `get_rearrangements_count` over the requested ids:
      it raises exactly when some requested id has a failing document, and
      otherwise answers each id's facets in request order. */
  function FacetsForIds(index: Index, store: Store, ids: seq<Value>): (r: Outcome<seq<Facet>>)
    ensures r.Returned? ==> forall f | f in r.value :: f.repertoireId in ids
    ensures r.Raised? <==> exists i | 0 <= i < |ids| :: SomeOwnerFails(index, store, ids[i])
    ensures r.Returned? ==> r.value == Flatten(IdFacetLists(index, store, ids))
  {
    if |ids| == 0 then Returned([])
    else
      var first := FacetsForId(index, store, ids[0]);
      var rest := FacetsForIds(index, store, ids[1..]);
      assert forall i | 1 <= i < |ids| :: ids[i] == ids[1..][i - 1];
      Then(first, rest)
  }

  /** `get_rearrangements_count(value)`: the filter value is iterated, so a
      list contributes its items and a string its characters. A value that
      cannot be iterated raises; otherwise the answer is raised exactly when
      a document listing one of the ids fails, and is otherwise the facets
      of each id in turn. */
  function GetRearrangementsCount(index: Index, store: Store, value: Value): (r: Outcome<seq<Facet>>)
    ensures Iterate(value).None? ==> r.Raised?
    ensures Iterate(value).Some? ==> var ids := Iterate(value).value;
      && (r.Raised? <==> exists i | 0 <= i < |ids| :: SomeOwnerFails(index, store, ids[i]))
      && (r.Returned? ==> r.value == Flatten(IdFacetLists(index, store, ids)))
  {
    match Iterate(value)
    case None => Raised
    case Some(ids) => FacetsForIds(index, store, ids)
  }

  /** An id no entry lists yields no facet and reads no document. */
  lemma {:induction false} UnknownIdCountsNothing(index: Index, store: Store, id: Value)
    requires forall j | 0 <= j < |index| :: id !in index[j].ids
    ensures FacetsForId(index, store, id) == Returned([])
    decreases |index|
  {
    if |index| > 0 {
      UnknownIdCountsNothing(index[1..], store, id);
    }
  }

  /** Requesting `a` then `b` answers with the facets of `a` then those of `b`. */
  lemma {:induction false} CountsConcatenate(index: Index, store: Store, a: seq<Value>, b: seq<Value>)
    ensures FacetsForIds(index, store, a + b) == Then(FacetsForIds(index, store, a), FacetsForIds(index, store, b))
    decreases |a|
  {
    if |a| == 0 {
      assert a + b == b;
      var fb := FacetsForIds(index, store, b);
      if fb.Returned? {
        assert [] + fb.value == fb.value;
      }
    } else {
      assert (a + b)[1..] == a[1..] + b;
      assert (a + b)[0] == a[0];
      CountsConcatenate(index, store, a[1..], b);
      ThenAssociative(FacetsForId(index, store, a[0]), FacetsForIds(index, store, a[1..]), FacetsForIds(index, store, b));
    }
  }

  /** For an index that lists each document's ids and has one entry per
      document, an id held by exactly one document is answered with that
      document's records for the id, one facet each, with their counts. */
  lemma {:induction false} CountsComeFromOwner(index: Index, store: Store, id: Value, j: nat)
    requires j < |index| && Load(store, index[j].path).Some? && id in index[j].ids
    requires forall k | 0 <= k < |index| && k != j :: id !in index[k].ids
    ensures FacetsForId(index, store, id) == CountsIn(Load(store, index[j].path).value, id)
  {
    var here := CountsIn(Load(store, index[j].path).value, id);
    if here.Raised? {
      assert OwnerFails(store, index[j], id);
    } else {
      assert forall k | 0 <= k < |index| :: !OwnerFails(store, index[k], id);
      var lists := FacetLists(index, store, id);
      assert forall k | 0 <= k < |lists| && k != j :: lists[k] == [];
      FlattenSingle(lists, j);
    }
  }

  /** The compressed rearrangement files on disk, by path, with their sizes
      in bytes as `os.path.getsize` reports them. */
  type Artifacts = map<string, nat>

  datatype Artifact = Artifact(path: string, size: nat)

  /** Index of the first entry listing `id`: `get_rearrangements_files`
      returns from inside its loop at the first match. */
  function FirstOwner(index: Index, id: Value): (r: Option<nat>)
    ensures r.None? <==> forall j | 0 <= j < |index| :: id !in index[j].ids
    ensures r.Some? ==> r.value < |index| && id in index[r.value].ids
    ensures r.Some? ==> forall j | 0 <= j < r.value :: id !in index[j].ids
  {
    if |index| == 0 then None
    else if id in index[0].ids then Some(0)
    else
      match FirstOwner(index[1..], id)
      case None => None
      case Some(j) => assert index[1..][j] == index[j + 1]; Some(j + 1)
  }

  /** The rearrangement file of one repertoire: the first document listing
      the id decides, its `metadata.json` is replaced by `<id>.tsv.gz`, and
      when that file is absent the answer is "not found" without looking at
      later documents. */
  function LocateArtifact(index: Index, artifacts: Artifacts, id: Value): (r: Option<Artifact>)
    ensures r.Some? ==> r.value.path in artifacts && r.value.size == artifacts[r.value.path]
    ensures r.Some? ==> FirstOwner(index, id).Some? && Display(id).Some?
    ensures (forall j | 0 <= j < |index| :: id !in index[j].ids) || Display(id).None? ==> r.None?
  {
    match FirstOwner(index, id)
    case None => None
    case Some(j) =>
      match Display(id)
      case None => None
      case Some(name) =>
        var path := ArtifactPath(index[j], name);
        if path in artifacts then Some(Artifact(path, artifacts[path])) else None
  }

  /** Where an entry's rearrangement file for a repertoire named `name`
      would be: its path with `metadata.json` replaced by `<name>.tsv.gz`. */
  function ArtifactPath(e: Entry, name: string): string
  {
    Text.ReplaceAll(e.path, MetadataName, name + ArtifactSuffix)
  }

  /** The entry listing `id` before any other decides alone: the answer is
      its file when that exists and "not found" otherwise, even when a later
      entry listing the id has its file on disk. */
  lemma LocateFirstOwner(index: Index, artifacts: Artifacts, id: Value, j: nat)
    requires j < |index| && id in index[j].ids
    requires forall i | 0 <= i < j :: id !in index[i].ids
    requires Display(id).Some?
    ensures var p := ArtifactPath(index[j], Display(id).value);
      LocateArtifact(index, artifacts, id) == if p in artifacts then Some(Artifact(p, artifacts[p])) else None
  {
    assert FirstOwner(index, id) == Some(j);
  }

  /** `get_rearrangements_files(value)`. The current generation wraps a
      non-list value in a list and looks up its first element only; with an
      empty list and a non-empty index, `repertoire_id[0]` raises. */
  function GetRearrangementsFiles(v: Requests.Variant, index: Index, artifacts: Artifacts, value: Value)
    : (r: Outcome<Option<Artifact>>)
    ensures v == Requests.Early ==> r == Returned(LocateArtifact(index, artifacts, value))
    ensures v == Requests.Current && !value.Arr? ==> r == Returned(LocateArtifact(index, artifacts, value))
    ensures v == Requests.Current && value.Arr? && |value.items| > 0 ==>
      r == Returned(LocateArtifact(index, artifacts, value.items[0]))
    ensures r.Raised? <==> v == Requests.Current && |index| > 0 && value == Arr([])
  {
    match v
    case Early => Returned(LocateArtifact(index, artifacts, value))
    case Current =>
      if |index| == 0 then Returned(None)
      else
        var ids := if value.Arr? then value.items else [value];
        if |ids| == 0 then Raised else Returned(LocateArtifact(index, artifacts, ids[0]))
  }

  /** Replacing the trailing `metadata.json` of a study's metadata path by a
      file name names that file in the study directory. */
  lemma ArtifactPathOfEntry(dir: string, name: string)
    requires !Text.IsSubstring(MetadataName, dir)
    ensures Text.ReplaceAll(Text.PathJoin(dir, MetadataName), MetadataName, name) == Text.DirPrefix(dir) + name
  {
    var prefix := Text.DirPrefix(dir);
    MetadataNameRelative();
    Text.DirPrefixKeepsAbsence(dir, MetadataName);
    Text.JoinRelative(dir, MetadataName);
    Text.ReplaceTrailing(prefix, MetadataName, name);
  }

  /** `metadata.json` is a plain file name. */
  lemma MetadataNameRelative()
    ensures |MetadataName| > 0 && MetadataName[0] != '/' && '/' !in MetadataName
  {
    assert MetadataName == ['m', 'e', 't', 'a', 'd', 'a', 't', 'a', '.', 'j', 's', 'o', 'n'];
  }

  /** For an index whose entries are the `metadata.json` files of the listed
      studies, in listing order (a build yields one, see
      `BuildIndexesEveryStudy`), and study directories that do not themselves
      contain the text `metadata.json`, a located file sits in the directory
      of the first study that lists the id, next to its `metadata.json`,
      under the name `<id>.tsv.gz`. */
  lemma ArtifactBesideMetadata(root: string, studies: seq<string>, idx: Index, artifacts: Artifacts, id: Value)
    requires |idx| <= |studies|
    requires forall k | 0 <= k < |idx| :: idx[k].path == MetadataPath(root, studies[k])
    requires forall k | 0 <= k < |studies| :: !Text.IsSubstring(MetadataName, Text.PathJoin(root, studies[k]))
    requires LocateArtifact(idx, artifacts, id).Some?
    ensures var a := LocateArtifact(idx, artifacts, id).value;
      exists k | 0 <= k < |idx| ::
        && id in idx[k].ids && (forall i | 0 <= i < k :: id !in idx[i].ids)
        && a.path == Text.DirPrefix(Text.PathJoin(root, studies[k])) + Display(id).value + ArtifactSuffix
  {
    var k := FirstOwner(idx, id).value;
    LocatedBeside(idx, artifacts, id, Text.PathJoin(root, studies[k]));
  }

  lemma LocatedBeside(idx: Index, artifacts: Artifacts, id: Value, dir: string)
    requires LocateArtifact(idx, artifacts, id).Some?
    requires idx[FirstOwner(idx, id).value].path == Text.PathJoin(dir, MetadataName)
    requires !Text.IsSubstring(MetadataName, dir)
    ensures LocateArtifact(idx, artifacts, id).value.path == Text.DirPrefix(dir) + Display(id).value + ArtifactSuffix
  {
    var name := Display(id).value + ArtifactSuffix;
    ArtifactPathOfEntry(dir, name);
  }
}

=== FILE: fields.dfy ===
/** Field validation and projection (`validate_fields`,
    `get_filtered_metadata` and `get_metadata` in repertoire.py): a request's
    `fields` list names dotted paths into a repertoire record; every path is
    checked first, then the record is cut down to the requested paths. */
module Fields {
  import opened Wrappers
  import opened Json
  import Text

  /** A dotted field path after `split('.')`. */
  type Path = seq<string>

  /** `e` is the dotted text of some suffix of `path`. */
  predicate IsDottedSuffix(e: string, path: Path)
  {
    exists k | 0 <= k < |path| :: e == Text.Join(path[k..])
  }

  lemma SuffixOfTail(path: Path)
    requires |path| > 1
    ensures forall e | IsDottedSuffix(e, path[1..]) :: IsDottedSuffix(e, path)
  {
    forall e | IsDottedSuffix(e, path[1..]) ensures IsDottedSuffix(e, path) {
      var k :| 0 <= k < |path[1..]| && e == Text.Join(path[1..][k..]);
      assert path[1..][k..] == path[k + 1..];
    }
  }

  /** The paths `check_recursive(data, path)` reports: the remaining dotted
      suffix at every dict that lacks the next key, one entry per list
      element that fails; a scalar met mid-path reports nothing. */
  function Missing(data: Value, path: Path): (missing: seq<string>)
    requires |path| > 0
    ensures forall e | e in missing :: IsDottedSuffix(e, path)
    decreases data
  {
    match data
    case Obj(ms) =>
      var i := KeyIndex(ms, path[0]);
      if i < 0 then
        assert path[0..] == path;
        [Text.Join(path)]
      else if |path| > 1 then
        SuffixOfTail(path);
        Missing(ms[i].value, path[1..])
      else []
    case Arr(items) => MissingIn(items, path)
    case _ => []
  }

  function MissingIn(items: seq<Value>, path: Path): (missing: seq<string>)
    requires |path| > 0
    ensures forall e | e in missing :: IsDottedSuffix(e, path)
    decreases items
  {
    if |items| == 0 then [] else Missing(items[0], path) + MissingIn(items[1..], path)
  }

  /** Walking `prefix` down from `data`, through a dict by key and into
      every element of a list, reaches some dict that lacks `key`. */
  predicate LacksAt(data: Value, prefix: Path, key: string)
    decreases data
  {
    match data
    case Obj(ms) =>
      if |prefix| == 0 then !HasKey(ms, key)
      else HasKey(ms, prefix[0]) && LacksAt(ms[KeyIndex(ms, prefix[0])].value, prefix[1..], key)
    case Arr(items) => exists v | v in items :: LacksAt(v, prefix, key)
    case _ => false
  }

  /** The `k`-th key of `path` is absent somewhere the keys before it lead. */
  predicate FailsAt(data: Value, path: Path, k: nat)
    requires k < |path|
  {
    LacksAt(data, path[..k], path[k])
  }

  /** `data` has every key of `path` wherever the path leads: the condition
      under which a record satisfies a requested field. */
  predicate Resolves(data: Value, path: Path)
  {
    forall k | 0 <= k < |path| :: !FailsAt(data, path, k)
  }

  /** The entries of `MissingIn` are those of its elements. */
  lemma {:induction false} MissingInMembers(items: seq<Value>, path: Path, e: string)
    requires |path| > 0
    ensures e in MissingIn(items, path) <==> exists v | v in items :: e in Missing(v, path)
    decreases items
  {
    if |items| > 0 {
      MissingInMembers(items[1..], path, e);
      assert forall v | v in items :: v == items[0] || v in items[1..];
      if e in Missing(items[0], path) {
        assert items[0] in items;
      }
      if exists v | v in items[1..] :: e in Missing(v, path) {
        var v :| v in items[1..] && e in Missing(v, path);
        assert v in items;
      }
    }
  }

  /** What `check_recursive` appends for each element of a list, element
      by element. */
  function ElementReports(items: seq<Value>, path: Path): (r: seq<seq<string>>)
    requires |path| > 0
    ensures |r| == |items|
    ensures forall i | 0 <= i < |items| :: r[i] == Missing(items[i], path)
  {
    if |items| == 0 then [] else [Missing(items[0], path)] + ElementReports(items[1..], path)
  }

  /** A list's report is its elements' reports one after another, in
      element order: each failing element adds its own entries, none is
      merged, dropped or reordered. */
  lemma {:induction false} MissingInFlattens(items: seq<Value>, path: Path)
    requires |path| > 0
    ensures MissingIn(items, path) == Flatten(ElementReports(items, path))
    decreases items
  {
    if |items| > 0 {
      MissingInFlattens(items[1..], path);
      assert ElementReports(items, path)[1..] == ElementReports(items[1..], path);
    }
  }

  /** The report over two runs of elements is the first run's report
      followed by the second's. */
  lemma {:induction false} MissingInAppend(a: seq<Value>, b: seq<Value>, path: Path)
    requires |path| > 0
    ensures MissingIn(a + b, path) == MissingIn(a, path) + MissingIn(b, path)
    decreases a
  {
    if |a| == 0 {
      assert a + b == b;
    } else {
      assert (a + b)[1..] == a[1..] + b;
      MissingInAppend(a[1..], b, path);
    }
  }

  /** A one-key path reports a dict exactly once when the key is absent,
      and not at all otherwise; so a list of dicts reports the key once per
      dict that lacks it. */
  lemma MissingOneKey(ms: seq<Member>, key: string)
    ensures Missing(Obj(ms), [key]) == if HasKey(ms, key) then [] else [key]
  {
  }

  /** `e` is the dotted rest of `path` from a key absent somewhere the keys
      before it lead. */
  predicate Reported(data: Value, path: Path, e: string)
  {
    exists k | 0 <= k < |path| :: FailsAt(data, path, k) && e == Text.Join(path[k..])
  }

  /** `check_recursive` reports `e` exactly when `e` is the dotted suffix of
      the path from a key that is absent somewhere the keys before it lead. */
  lemma {:induction false} MissingReports(data: Value, path: Path, e: string)
    requires |path| > 0
    ensures e in Missing(data, path) <==> Reported(data, path, e)
    decreases data
  {
    match data
    case Obj(ms) =>
      var i := KeyIndex(ms, path[0]);
      assert path[..0] == [] && path[0..] == path;
      if i < 0 {
        assert FailsAt(data, path, 0);
      } else if |path| == 1 {
        assert !FailsAt(data, path, 0);
      } else {
        MissingReports(ms[i].value, path[1..], e);
        ReportedThroughKey(ms, path, e);
      }
    case Arr(items) =>
      MissingInMembers(items, path, e);
      forall v | v in items ensures e in Missing(v, path) <==> Reported(v, path, e) {
        MissingReports(v, path, e);
      }
      ReportedInItems(items, path, e);
    case _ =>
  }

  /** Through a dict holding the next key, a report of the value under it
      is a report of the dict, one key further along the path. */
  lemma ReportedThroughKey(ms: seq<Member>, path: Path, e: string)
    requires |path| > 1 && HasKey(ms, path[0])
    ensures Reported(Obj(ms), path, e) <==> Reported(ms[KeyIndex(ms, path[0])].value, path[1..], e)
  {
    var data := Obj(ms);
    var c := ms[KeyIndex(ms, path[0])].value;
    assert path[..0] == [];
    assert !FailsAt(data, path, 0);
    forall k | 0 < k < |path| ensures FailsAt(data, path, k) == FailsAt(c, path[1..], k - 1) {
      assert path[..k][0] == path[0];
      assert path[..k][1..] == path[1..][..k - 1];
    }
    forall k | 0 < k < |path| ensures path[k..] == path[1..][k - 1..] { }
    if Reported(c, path[1..], e) {
      var k :| 0 <= k < |path[1..]| && FailsAt(c, path[1..], k) && e == Text.Join(path[1..][k..]);
      assert FailsAt(data, path, k + 1);
    }
    if Reported(data, path, e) {
      var k :| 0 <= k < |path| && FailsAt(data, path, k) && e == Text.Join(path[k..]);
      assert FailsAt(c, path[1..], k - 1);
    }
  }

  /** A list reports `e` for a path exactly when one of its elements does. */
  lemma ReportedInItems(items: seq<Value>, path: Path, e: string)
    ensures Reported(Arr(items), path, e) <==> exists v | v in items :: Reported(v, path, e)
  {
    if Reported(Arr(items), path, e) {
      var k :| 0 <= k < |path| && FailsAt(Arr(items), path, k) && e == Text.Join(path[k..]);
      var v :| v in items && LacksAt(v, path[..k], path[k]);
      assert FailsAt(v, path, k);
    }
    if exists v | v in items :: Reported(v, path, e) {
      var v :| v in items && Reported(v, path, e);
      var k :| 0 <= k < |path| && FailsAt(v, path, k) && e == Text.Join(path[k..]);
      assert FailsAt(Arr(items), path, k);
    }
  }

  /** A path reports nothing exactly when it resolves. */
  lemma MissingEmptyIffResolves(data: Value, path: Path)
    requires |path| > 0
    ensures Missing(data, path) == [] <==> Resolves(data, path)
  {
    var missing := Missing(data, path);
    if missing != [] {
      MissingReports(data, path, missing[0]);
    }
    if !Resolves(data, path) {
      var k :| 0 <= k < |path| && FailsAt(data, path, k);
      MissingReports(data, path, Text.Join(path[k..]));
    }
  }

  /** `validate_fields`: the list of unresolved paths over all requested
      fields, in request order; the source raises exactly when it is non-empty. */
  function ValidateFields(data: Value, fields: seq<string>): (missing: seq<string>)
    ensures forall e | e in missing :: exists f | f in fields :: IsDottedSuffix(e, Text.Split(f))
    ensures |missing| == 0 <==> forall f | f in fields :: Missing(data, Text.Split(f)) == []
  {
    if |fields| == 0 then []
    else
      var head := Missing(data, Text.Split(fields[0]));
      var rest := ValidateFields(data, fields[1..]);
      ValidateStep(fields, head, rest, data);
      head + rest
  }

  lemma ValidateStep(fields: seq<string>, head: seq<string>, rest: seq<string>, data: Value)
    requires |fields| > 0
    requires head == Missing(data, Text.Split(fields[0]))
    requires forall e | e in rest :: exists f | f in fields[1..] :: IsDottedSuffix(e, Text.Split(f))
    requires |rest| == 0 <==> forall f | f in fields[1..] :: Missing(data, Text.Split(f)) == []
    ensures forall e | e in head + rest :: exists f | f in fields :: IsDottedSuffix(e, Text.Split(f))
    ensures |head + rest| == 0 <==> forall f | f in fields :: Missing(data, Text.Split(f)) == []
  {
    forall e | e in head + rest ensures exists f | f in fields :: IsDottedSuffix(e, Text.Split(f)) {
      if e in head {
        assert IsDottedSuffix(e, Text.Split(fields[0]));
      } else {
        var f :| f in fields[1..] && IsDottedSuffix(e, Text.Split(f));
        assert f in fields;
      }
    }
    assert forall f | f in fields :: f == fields[0] || f in fields[1..];
  }

  /** The entries of `validate_fields` are those of the requested fields. */
  lemma {:induction false} ValidateFieldsMembers(data: Value, fields: seq<string>, e: string)
    ensures e in ValidateFields(data, fields) <==> exists f | f in fields :: e in Missing(data, Text.Split(f))
  {
    if |fields| > 0 {
      ValidateFieldsMembers(data, fields[1..], e);
      assert forall f | f in fields :: f == fields[0] || f in fields[1..];
      if e in Missing(data, Text.Split(fields[0])) {
        assert fields[0] in fields;
      }
      if exists f | f in fields[1..] :: e in Missing(data, Text.Split(f)) {
        var f :| f in fields[1..] && e in Missing(data, Text.Split(f));
        assert f in fields;
      }
    }
  }

  /** What `check_recursive` appends for each requested field, field by
      field. */
  function FieldReports(data: Value, fields: seq<string>): (r: seq<seq<string>>)
    ensures |r| == |fields|
    ensures forall i | 0 <= i < |fields| :: r[i] == Missing(data, Text.Split(fields[i]))
  {
    if |fields| == 0 then [] else [Missing(data, Text.Split(fields[0]))] + FieldReports(data, fields[1..])
  }

  /** `validate_fields` lists each requested field's report in turn, in
      request order, with every entry kept. */
  lemma {:induction false} ValidateFieldsFlattens(data: Value, fields: seq<string>)
    ensures ValidateFields(data, fields) == Flatten(FieldReports(data, fields))
    decreases fields
  {
    if |fields| > 0 {
      ValidateFieldsFlattens(data, fields[1..]);
      assert FieldReports(data, fields)[1..] == FieldReports(data, fields[1..]);
    }
  }

  /** Requesting two runs of fields reports the first run's entries, then
      the second's. */
  lemma {:induction false} ValidateFieldsAppend(data: Value, f: seq<string>, g: seq<string>)
    ensures ValidateFields(data, f + g) == ValidateFields(data, f) + ValidateFields(data, g)
    decreases f
  {
    if |f| == 0 {
      assert f + g == g;
    } else {
      assert (f + g)[1..] == f[1..] + g;
      ValidateFieldsAppend(data, f[1..], g);
    }
  }

  /** `validate_fields` reports `e` exactly when some requested field has a
      key absent somewhere the keys before it lead, and `e` is the dotted
      rest of that field from the absent key on. */
  lemma ValidateFieldsReports(data: Value, fields: seq<string>, e: string)
    ensures e in ValidateFields(data, fields) <==>
      exists f, k | f in fields && 0 <= k < |Text.Split(f)| ::
        FailsAt(data, Text.Split(f), k) && e == Text.Join(Text.Split(f)[k..])
  {
    ValidateFieldsMembers(data, fields, e);
    if e in ValidateFields(data, fields) {
      var f :| f in fields && e in Missing(data, Text.Split(f));
      var path := Text.Split(f);
      MissingReports(data, path, e);
      var k :| 0 <= k < |path| && FailsAt(data, path, k) && e == Text.Join(path[k..]);
      assert f in fields && 0 <= k < |Text.Split(f)| && FailsAt(data, Text.Split(f), k);
    } else {
      forall f, k | f in fields && 0 <= k < |Text.Split(f)|
        ensures !(FailsAt(data, Text.Split(f), k) && e == Text.Join(Text.Split(f)[k..]))
      {
        assert e !in Missing(data, Text.Split(f));
        MissingReports(data, Text.Split(f), e);
      }
    }
  }

  /** The request passes validation exactly when every requested field
      resolves in the record. */
  lemma ValidateFieldsAccepts(data: Value, fields: seq<string>)
    ensures ValidateFields(data, fields) == [] <==> forall f | f in fields :: Resolves(data, Text.Split(f))
  {
    forall f | f in fields ensures Missing(data, Text.Split(f)) == [] <==> Resolves(data, Text.Split(f)) {
      MissingEmptyIffResolves(data, Text.Split(f));
    }
  }

  /** Some requested path starts with `key`. */
  predicate Requested(paths: seq<Path>, key: string)
  {
    exists p | p in paths :: |p| > 0 && p[0] == key
  }

  predicate AllNonEmpty(paths: seq<Path>)
  {
    forall p | p in paths :: |p| > 0
  }

  /** The keys that start a requested path, in order. */
  function RequestedKeys(keys: seq<string>, paths: seq<Path>): (r: seq<string>)
    ensures |r| <= |keys|
    ensures forall k :: k in r <==> k in keys && Requested(paths, k)
  {
    if |keys| == 0 then []
    else if Requested(paths, keys[0]) then [keys[0]] + RequestedKeys(keys[1..], paths)
    else RequestedKeys(keys[1..], paths)
  }

  /** `[f[1:] for f in paths if f[0] == key]`. */
  function Tails(paths: seq<Path>, key: string): (tails: seq<Path>)
    ensures |tails| > 0 <==> Requested(paths, key)
    ensures forall p | p in paths && |p| > 0 && p[0] == key :: p[1..] in tails
    ensures |tails| <= |paths|
  {
    if |paths| == 0 then []
    else
      var rest := Tails(paths[1..], key);
      assert forall p | p in paths :: p == paths[0] || p in paths[1..];
      if |paths[0]| > 0 && paths[0][0] == key then [paths[0][1..]] + rest
      else rest
  }

  /** Every tail comes from a requested path that starts with the key. */
  lemma {:induction false} TailsComeFromPaths(paths: seq<Path>, key: string)
    ensures forall t | t in Tails(paths, key) :: exists p | p in paths && |p| > 0 && p[0] == key :: t == p[1..]
  {
    if |paths| > 0 {
      TailsComeFromPaths(paths[1..], key);
      assert forall p | p in paths[1..] :: p in paths;
      assert paths[0] in paths;
    }
  }

  /** `filter_recursive(data, paths)`: `None` when Python raises an
      IndexError, which happens when a dict with at least one key is reached
      by a path that has already run out. */
  function Project(data: Value, paths: seq<Path>): (r: Option<Value>)
    ensures !data.Obj? && !data.Arr? ==> r == Some(data)
    ensures data.Arr? && r.Some? ==> r.value.Arr? && |r.value.items| == |data.items|
    ensures data.Obj? && r.Some? ==>
      r.value.Obj? && Keys(r.value.members) == RequestedKeys(Keys(data.members), paths)
    decreases data
  {
    match data
    case Obj(ms) =>
      var kept := ProjectMembers(ms, paths);
      if kept.Some? then Some(Obj(kept.value)) else None
    case Arr(items) =>
      var out := ProjectItems(items, paths);
      if out.Some? then Some(Arr(out.value)) else None
    case _ => Some(data)
  }

  /** The dict branch: the members whose key starts a requested path, in
      source order, each projected with the tails of those paths. */
  function ProjectMembers(ms: seq<Member>, paths: seq<Path>): (r: Option<seq<Member>>)
    ensures r.Some? ==> Keys(r.value) == RequestedKeys(Keys(ms), paths)
    decreases ms
  {
    if |ms| == 0 then Some([])
    else if !AllNonEmpty(paths) then None
    else
      var key := ms[0].key;
      var tails := Tails(paths, key);
      var rest := ProjectMembers(ms[1..], paths);
      assert Keys(ms) == [key] + Keys(ms[1..]);
      if |tails| == 0 then rest
      else
        var v := Project(ms[0].value, tails);
        if v.None? || rest.None? then None
        else
          assert Keys([Member(key, v.value)] + rest.value) == [key] + Keys(rest.value);
          Some([Member(key, v.value)] + rest.value)
  }

  /** The list branch: every element projected with the same paths. */
  function ProjectItems(items: seq<Value>, paths: seq<Path>): (r: Option<seq<Value>>)
    ensures r.Some? <==> forall i | 0 <= i < |items| :: Project(items[i], paths).Some?
    ensures r.Some? ==> |r.value| == |items|
    ensures r.Some? ==> forall i | 0 <= i < |items| :: Project(items[i], paths) == Some(r.value[i])
    decreases items
  {
    if |items| == 0 then Some([])
    else
      var v := Project(items[0], paths);
      var rest := ProjectItems(items[1..], paths);
      if v.None? || rest.None? then None
      else Some([v.value] + rest.value)
  }

  /** `fields_split`: every requested field split at its dots. */
  function SplitAll(fields: seq<string>): (paths: seq<Path>)
    ensures |paths| == |fields|
    ensures forall i | 0 <= i < |fields| :: paths[i] == Text.Split(fields[i])
    ensures AllNonEmpty(paths)
  {
    seq(|fields|, i requires 0 <= i < |fields| => Text.Split(fields[i]))
  }

  /** `get_filtered_metadata(data, fields)`: it raises exactly when a
      requested field, followed through the record, runs out on a dict with
      keys; otherwise a dict record keeps exactly its requested keys. */
  function GetFilteredMetadata(data: Value, fields: seq<string>): (r: Option<Value>)
    ensures r.None? <==> exists f | f in fields :: EndsOnTrip(data, Text.Split(f))
    ensures data.Obj? && r.Some? ==>
      r.value.Obj? && Keys(r.value.members) == RequestedKeys(Keys(data.members), SplitAll(fields))
  {
    ProjectFails(data, SplitAll(fields));
    SplitAllTrips(data, fields);
    Project(data, SplitAll(fields))
  }

  /** A field trips the record exactly when its split path does. */
  lemma SplitAllTrips(data: Value, fields: seq<string>)
    ensures TripsOn(data, SplitAll(fields)) <==> exists f | f in fields :: EndsOnTrip(data, Text.Split(f))
  {
    var paths := SplitAll(fields);
    if TripsOn(data, paths) {
      var p :| p in paths && EndsOnTrip(data, p);
      var i :| 0 <= i < |paths| && paths[i] == p;
      assert fields[i] in fields;
    }
    if exists f | f in fields :: EndsOnTrip(data, Text.Split(f)) {
      var f :| f in fields && EndsOnTrip(data, Text.Split(f));
      var i :| 0 <= i < |fields| && fields[i] == f;
      assert paths[i] in paths;
    }
  }

  /** Why `get_metadata` raised; the callers turn it into an error reply. */
  datatype MetadataError =
    | IncorrectFields(missing: seq<string>)  // "incorrect fields - [...]"
    | TypeError                              // `len`, `.get` or `.split` on the wrong kind of value
    | IndexError                             // the projection quirk above

  /** The request's `fields` entry, `request_data.get("fields", [])`; `None`
      when the request body is not a dict. */
  function FieldsEntry(request: Value): Option<Value>
  {
    match request
    case Obj(ms) => Some(if HasKey(ms, "fields") then Get(ms, "fields") else Arr([]))
    case _ => None
  }

  /** The field names a request asks for, when `fields` is a list of strings. */
  predicate AsksFor(request: Value, fields: seq<string>)
  {
    FieldsEntry(request) == Some(Arr(seq(|fields|, i requires 0 <= i < |fields| => Str(fields[i]))))
  }

  function StringsOf(items: seq<Value>): Option<seq<string>>
  {
    if |items| == 0 then Some([])
    else match (items[0], StringsOf(items[1..]))
      case (Str(s), Some(rest)) => Some([s] + rest)
      case _ => None
  }

  lemma StringsOfStrings(fields: seq<string>)
    ensures StringsOf(seq(|fields|, i requires 0 <= i < |fields| => Str(fields[i]))) == Some(fields)
  {
    if |fields| > 0 {
      var items := seq(|fields|, i requires 0 <= i < |fields| => Str(fields[i]));
      assert items[1..] == seq(|fields[1..]|, i requires 0 <= i < |fields[1..]| => Str(fields[1..][i]));
      StringsOfStrings(fields[1..]);
      assert fields == [fields[0]] + fields[1..];
    }
  }

  /** `get_metadata(repertoire_info, request_data)`: with no requested fields
      the record comes back untouched; otherwise every path is validated,
      and only a record that passes is projected. */
  function GetMetadata(record: Value, request: Value): (r: Result<Value, MetadataError>)
    ensures request.Obj? && !HasKey(request.members, "fields") ==> r == Success(record)
    ensures AsksFor(request, []) ==> r == Success(record)
    ensures !request.Obj? ==> r == Failure(TypeError)
  {
    match FieldsEntry(request)
    case None => Failure(TypeError)
    case Some(entry) =>
      match Length(entry)
      case None => Failure(TypeError)
      case Some(n) =>
        if n == 0 then Success(record)
        else
          var names := Iterate(entry).value;
          match StringsOf(names)
          case None => Failure(TypeError)
          case Some(fields) =>
            var missing := ValidateFields(record, fields);
            if |missing| > 0 then Failure(IncorrectFields(missing))
            else
              match GetFilteredMetadata(record, fields)
              case None => Failure(IndexError)
              case Some(v) => Success(v)
  }

  /** With a non-empty list of field names, `get_metadata` reports exactly
      the unresolved paths when there are any, and otherwise returns the
      projection, or fails with the IndexError of the projection quirk. */
  lemma GetMetadataValidatesFirst(record: Value, request: Value, fields: seq<string>)
    requires AsksFor(request, fields) && |fields| > 0
    ensures |ValidateFields(record, fields)| > 0 ==>
      GetMetadata(record, request) == Failure(IncorrectFields(ValidateFields(record, fields)))
    ensures |ValidateFields(record, fields)| == 0 ==>
      match GetFilteredMetadata(record, fields)
      case Some(v) => GetMetadata(record, request) == Success(v)
      case None => GetMetadata(record, request) == Failure(IndexError)
    ensures |ValidateFields(record, fields)| == 0 ==>
      (GetMetadata(record, request) == Failure(IndexError) <==>
        exists f | f in fields :: EndsOnTrip(record, Text.Split(f)))
  {
    GetMetadataStep(record, request, fields);
  }

  /** One unfolding of `get_metadata` on a non-empty list of field names. */
  lemma GetMetadataStep(record: Value, request: Value, fields: seq<string>)
    requires AsksFor(request, fields) && |fields| > 0
    ensures GetMetadata(record, request) ==
      var missing := ValidateFields(record, fields);
      if |missing| > 0 then Failure(IncorrectFields(missing))
      else if GetFilteredMetadata(record, fields).None? then Failure(IndexError)
      else Success(GetFilteredMetadata(record, fields).value)
  {
    var items := seq(|fields|, i requires 0 <= i < |fields| => Str(fields[i]));
    assert FieldsEntry(request) == Some(Arr(items));
    assert Length(Arr(items)) == Some(|fields|);
    assert Iterate(Arr(items)) == Some(items);
    StringsOfStrings(fields);
  }

  /** A successful projection is a fixed point: projecting the result again
      with the same paths changes nothing. */
  lemma {:induction false} ProjectIdempotent(data: Value, paths: seq<Path>)
    requires Project(data, paths).Some?
    ensures Project(Project(data, paths).value, paths) == Project(data, paths)
    decreases data
  {
    match data
    case Obj(ms) => ProjectMembersIdempotent(ms, paths);
    case Arr(items) => ProjectItemsIdempotent(items, paths);
    case _ =>
  }

  lemma {:induction false} ProjectMembersIdempotent(ms: seq<Member>, paths: seq<Path>)
    requires ProjectMembers(ms, paths).Some?
    ensures ProjectMembers(ProjectMembers(ms, paths).value, paths) == ProjectMembers(ms, paths)
    decreases ms
  {
    if |ms| > 0 {
      var key := ms[0].key;
      var tails := Tails(paths, key);
      ProjectMembersIdempotent(ms[1..], paths);
      if |tails| > 0 {
        ProjectIdempotent(ms[0].value, tails);
        var rest := ProjectMembers(ms[1..], paths).value;
        var out := [Member(key, Project(ms[0].value, tails).value)] + rest;
        assert out[1..] == rest;
      }
    }
  }

  lemma {:induction false} ProjectItemsIdempotent(items: seq<Value>, paths: seq<Path>)
    requires ProjectItems(items, paths).Some?
    ensures ProjectItems(ProjectItems(items, paths).value, paths) == ProjectItems(items, paths)
    decreases items
  {
    if |items| > 0 {
      ProjectIdempotent(items[0], paths);
      ProjectItemsIdempotent(items[1..], paths);
      var out := ProjectItems(items, paths).value;
      assert out[1..] == ProjectItems(items[1..], paths).value;
    }
  }

  /** Looking a requested key up in a projected dict finds the projection of
      what the same lookup finds in the source dict. */
  lemma {:induction false} ProjectedLookup(ms: seq<Member>, paths: seq<Path>, key: string)
    requires Requested(paths, key)
    requires ProjectMembers(ms, paths).Some?
    ensures KeyIndex(ProjectMembers(ms, paths).value, key) < 0 <==> KeyIndex(ms, key) < 0
    ensures KeyIndex(ms, key) >= 0 ==>
      Project(ms[KeyIndex(ms, key)].value, Tails(paths, key))
        == Some(ProjectMembers(ms, paths).value[KeyIndex(ProjectMembers(ms, paths).value, key)].value)
    decreases ms
  {
    if |ms| > 0 {
      var out := ProjectMembers(ms, paths).value;
      var tails := Tails(paths, ms[0].key);
      var rest := ProjectMembers(ms[1..], paths);
      if ms[0].key == key {
        assert |tails| > 0;
        assert out[0] == Member(key, Project(ms[0].value, tails).value);
        assert KeyIndex(out, key) == 0;
      } else {
        ProjectedLookup(ms[1..], paths, key);
        var i := KeyIndex(ms[1..], key);
        assert KeyIndex(ms, key) == if i < 0 then -1 else i + 1;
        if |tails| > 0 {
          assert out[1..] == rest.value;
          assert out[0].key != key;
          var j := KeyIndex(rest.value, key);
          assert KeyIndex(out, key) == if j < 0 then -1 else j + 1;
        } else {
          assert out == rest.value;
        }
      }
    }
  }

  /** Validating a successful projection against one of the paths it was
      cut to reports exactly what validating the source reports. */
  lemma {:induction false} ProjectionKeepsMissing(data: Value, paths: seq<Path>, p: Path)
    requires |p| > 0 && p in paths
    requires Project(data, paths).Some?
    ensures Missing(Project(data, paths).value, p) == Missing(data, p)
    decreases data
  {
    match data
    case Obj(ms) =>
      ProjectedLookup(ms, paths, p[0]);
      var i := KeyIndex(ms, p[0]);
      if i >= 0 && |p| > 1 {
        assert p[1..] in Tails(paths, p[0]);
        ProjectionKeepsMissing(ms[i].value, Tails(paths, p[0]), p[1..]);
      }
    case Arr(items) => ProjectItemsKeepMissing(items, paths, p);
    case _ =>
  }

  lemma {:induction false} ProjectItemsKeepMissing(items: seq<Value>, paths: seq<Path>, p: Path)
    requires |p| > 0 && p in paths
    requires ProjectItems(items, paths).Some?
    ensures MissingIn(ProjectItems(items, paths).value, p) == MissingIn(items, p)
    decreases items
  {
    if |items| > 0 {
      ProjectionKeepsMissing(items[0], paths, p);
      ProjectItemsKeepMissing(items[1..], paths, p);
      var out := ProjectItems(items, paths).value;
      assert out[1..] == ProjectItems(items[1..], paths).value;
    }
  }

  /** Projection is transparent to validation: the projected record reports
      the same unresolved paths for the same fields, so a record that passed
      validation still passes it after projection. */
  lemma ValidationUnchangedByProjection(data: Value, fields: seq<string>)
    requires GetFilteredMetadata(data, fields).Some?
    ensures ValidateFields(GetFilteredMetadata(data, fields).value, fields) == ValidateFields(data, fields)
  {
    var paths := SplitAll(fields);
    forall f | f in fields ensures Text.Split(f) in paths {
      var i :| 0 <= i < |fields| && fields[i] == f;
      assert paths[i] == Text.Split(f);
    }
    ValidateUnder(data, paths, fields);
  }

  lemma {:induction false} ValidateUnder(data: Value, paths: seq<Path>, fields: seq<string>)
    requires Project(data, paths).Some?
    requires forall f | f in fields :: Text.Split(f) in paths
    ensures ValidateFields(Project(data, paths).value, fields) == ValidateFields(data, fields)
    decreases |fields|
  {
    if |fields| > 0 {
      ProjectionKeepsMissing(data, paths, Text.Split(fields[0]));
      assert forall f | f in fields[1..] :: f in fields;
      ValidateUnder(data, paths, fields[1..]);
    }
  }

  /** The values on which a path that has run out makes Python raise: a dict
      with a key, or a list holding such a value at any depth. */
  predicate Trips(v: Value)
  {
    match v
    case Obj(ms) => |ms| > 0
    case Arr(items) => exists i | 0 <= i < |items| :: Trips(items[i])
    case _ => false
  }

  /** Once one of the paths has run out, projection fails exactly on the
      values that trip it. */
  lemma {:induction false} ExhaustedPathFails(v: Value, paths: seq<Path>)
    requires [] in paths
    ensures Project(v, paths).None? <==> Trips(v)
    decreases v
  {
    match v
    case Arr(items) =>
      forall i | 0 <= i < |items| ensures Project(items[i], paths).None? <==> Trips(items[i]) {
        ExhaustedPathFails(items[i], paths);
      }
    case _ =>
  }

  /** A member whose value fails to project makes the whole dict fail. */
  lemma MemberFailureFails(ms: seq<Member>, paths: seq<Path>, i: int)
    requires 0 <= i < |ms|
    requires Requested(paths, ms[i].key)
    requires Project(ms[i].value, Tails(paths, ms[i].key)).None?
    ensures ProjectMembers(ms, paths).None?
  {
    assert ms[i..][0] == ms[i];
    HeadFailureFails(ms[i..], paths);
    var k := i;
    while k > 0
      invariant 0 <= k <= i
      invariant ProjectMembers(ms[k..], paths).None?
    {
      assert ms[k - 1..][1..] == ms[k..];
      RestFailureFails(ms[k - 1..], paths);
      k := k - 1;
    }
    assert ms[0..] == ms;
  }

  lemma HeadFailureFails(ms: seq<Member>, paths: seq<Path>)
    requires |ms| > 0 && Requested(paths, ms[0].key)
    requires Project(ms[0].value, Tails(paths, ms[0].key)).None?
    ensures ProjectMembers(ms, paths).None?
  {
    var tails := Tails(paths, ms[0].key);
    assert |tails| > 0;
  }

  lemma RestFailureFails(ms: seq<Member>, paths: seq<Path>)
    requires |ms| > 0 && ProjectMembers(ms[1..], paths).None?
    ensures ProjectMembers(ms, paths).None?
  {
  }

  /** The source quirk: a requested field that names a key whose value is a
      dict with keys, or a list of such dicts, makes `get_filtered_metadata`
      raise instead of returning the value whole. */
  lemma FieldEndingOnDictFails(ms: seq<Member>, i: int, fields: seq<string>)
    requires 0 <= i < |ms|
    requires ms[i].key in fields && '.' !in ms[i].key
    requires Trips(ms[i].value)
    ensures GetFilteredMetadata(Obj(ms), fields).None?
  {
    var paths := SplitAll(fields);
    var key := ms[i].key;
    var j :| 0 <= j < |fields| && fields[j] == key;
    Text.SplitSegment(key);
    assert paths[j] == [key];
    assert [key][1..] == [];
    ExhaustedPathFails(ms[i].value, Tails(paths, key));
    MemberFailureFails(ms, paths, i);
  }

  /** Walking `p` from `data`, through every member named by the next key
      and into every element of a list, reaches a value that trips once `p`
      has run out: the place where `f[0]` raises an IndexError. */
  predicate EndsOnTrip(data: Value, p: Path)
    decreases data
  {
    if |p| == 0 then Trips(data)
    else match data
      case Obj(ms) => exists i | 0 <= i < |ms| :: ms[i].key == p[0] && EndsOnTrip(ms[i].value, p[1..])
      case Arr(items) => exists i | 0 <= i < |items| :: EndsOnTrip(items[i], p)
      case _ => false
  }

  /** Some requested path, followed through `data`, ends on a trip. */
  predicate TripsOn(data: Value, paths: seq<Path>)
  {
    exists p | p in paths :: EndsOnTrip(data, p)
  }

  /** Some requested path headed by the member's key ends on a trip inside
      the member's value. */
  predicate MemberTrips(m: Member, paths: seq<Path>)
  {
    exists p | p in paths && |p| > 0 && p[0] == m.key :: EndsOnTrip(m.value, p[1..])
  }

  /** `filter_recursive` raises exactly when some requested path, followed
      through the data, runs out on a dict with keys, and succeeds otherwise. */
  lemma {:induction false} ProjectFails(data: Value, paths: seq<Path>)
    ensures Project(data, paths).None? <==> TripsOn(data, paths)
    decreases data
  {
    match data
    case Obj(ms) =>
      if |ms| == 0 {
        assert forall p | p in paths :: !EndsOnTrip(data, p);
      } else if !AllNonEmpty(paths) {
        var p :| p in paths && |p| == 0;
        assert EndsOnTrip(data, p);
      } else {
        ProjectMembersFails(ms, paths);
        TripsThroughMembers(ms, paths);
      }
    case Arr(items) =>
      forall i | 0 <= i < |items| ensures Project(items[i], paths).None? <==> TripsOn(items[i], paths) {
        ProjectFails(items[i], paths);
      }
      TripsThroughItems(items, paths);
    case _ =>
      assert forall p | p in paths :: !EndsOnTrip(data, p);
  }

  /** The dict branch fails exactly when one of its members trips. */
  lemma {:induction false} ProjectMembersFails(ms: seq<Member>, paths: seq<Path>)
    requires AllNonEmpty(paths)
    ensures ProjectMembers(ms, paths).None? <==> exists i | 0 <= i < |ms| :: MemberTrips(ms[i], paths)
    decreases ms
  {
    if |ms| > 0 {
      var tails := Tails(paths, ms[0].key);
      ProjectMembersStep(ms, paths);
      ProjectMembersFails(ms[1..], paths);
      ProjectFails(ms[0].value, tails);
      MemberTripsIffTails(ms[0], paths);
      SomeMemberTrips(ms, paths);
    }
  }

  /** One step of the dict branch: it fails when the first member is
      requested and fails, or when the rest fails. */
  lemma ProjectMembersStep(ms: seq<Member>, paths: seq<Path>)
    requires |ms| > 0 && AllNonEmpty(paths)
    ensures var tails := Tails(paths, ms[0].key);
      ProjectMembers(ms, paths).None? <==>
        (|tails| > 0 && Project(ms[0].value, tails).None?) || ProjectMembers(ms[1..], paths).None?
  {
  }

  /** Some member trips exactly when the first does or one of the rest does. */
  lemma SomeMemberTrips(ms: seq<Member>, paths: seq<Path>)
    requires |ms| > 0
    ensures (exists i | 0 <= i < |ms| :: MemberTrips(ms[i], paths)) <==>
      MemberTrips(ms[0], paths) || exists i | 0 <= i < |ms[1..]| :: MemberTrips(ms[1..][i], paths)
  {
    if exists i | 0 <= i < |ms[1..]| :: MemberTrips(ms[1..][i], paths) {
      var i :| 0 <= i < |ms[1..]| && MemberTrips(ms[1..][i], paths);
      assert MemberTrips(ms[i + 1], paths);
    }
    if exists i | 1 <= i < |ms| :: MemberTrips(ms[i], paths) {
      var i :| 1 <= i < |ms| && MemberTrips(ms[i], paths);
      assert MemberTrips(ms[1..][i - 1], paths);
    }
  }

  /** A member trips exactly when its value trips on the sub-fields of its key. */
  lemma MemberTripsIffTails(m: Member, paths: seq<Path>)
    ensures MemberTrips(m, paths) <==> TripsOn(m.value, Tails(paths, m.key))
  {
    var tails := Tails(paths, m.key);
    TailsComeFromPaths(paths, m.key);
    if MemberTrips(m, paths) {
      var p :| p in paths && |p| > 0 && p[0] == m.key && EndsOnTrip(m.value, p[1..]);
      assert p[1..] in tails;
    }
    if TripsOn(m.value, tails) {
      var t :| t in tails && EndsOnTrip(m.value, t);
      var p :| p in paths && |p| > 0 && p[0] == m.key && t == p[1..];
      assert EndsOnTrip(m.value, p[1..]);
    }
  }

  /** A non-empty dict trips on non-empty paths exactly when a member does. */
  lemma TripsThroughMembers(ms: seq<Member>, paths: seq<Path>)
    requires AllNonEmpty(paths)
    ensures TripsOn(Obj(ms), paths) <==> exists i | 0 <= i < |ms| :: MemberTrips(ms[i], paths)
  {
    if TripsOn(Obj(ms), paths) {
      var p :| p in paths && EndsOnTrip(Obj(ms), p);
      var i :| 0 <= i < |ms| && ms[i].key == p[0] && EndsOnTrip(ms[i].value, p[1..]);
      assert MemberTrips(ms[i], paths);
    }
    if exists i | 0 <= i < |ms| :: MemberTrips(ms[i], paths) {
      var i :| 0 <= i < |ms| && MemberTrips(ms[i], paths);
      var p :| p in paths && |p| > 0 && p[0] == ms[i].key && EndsOnTrip(ms[i].value, p[1..]);
      assert EndsOnTrip(Obj(ms), p);
    }
  }

  /** A list trips exactly when one of its elements does. */
  lemma TripsThroughItems(items: seq<Value>, paths: seq<Path>)
    ensures TripsOn(Arr(items), paths) <==> exists i | 0 <= i < |items| :: TripsOn(items[i], paths)
  {
    if TripsOn(Arr(items), paths) {
      var p :| p in paths && EndsOnTrip(Arr(items), p);
      var i :| 0 <= i < |items| && EndsOnTrip(items[i], p);
      assert TripsOn(items[i], paths);
    }
    if exists i | 0 <= i < |items| :: TripsOn(items[i], paths) {
      var i :| 0 <= i < |items| && TripsOn(items[i], paths);
      var p :| p in paths && EndsOnTrip(items[i], p);
      assert EndsOnTrip(Arr(items), p);
    }
  }
}

=== FILE: json.dfy ===
/** Parsed JSON values as Python's `json.load` hands them to the service,
    and the Python operators the service applies to them. */
module Json {
  import opened Wrappers
  import Text

  /** A JSON document. Objects keep their members in source order, as a
      Python dict does; numbers are integers. A parsed object holds each key
      once; the type does not enforce this, and every lookup (`KeyIndex`)
      goes to the first member with the key, so the lemmas hold for any
      member list. */
  datatype Value =
    | Null
    | Bool(b: bool)
    | Num(n: int)
    | Str(s: string)
    | Arr(items: seq<Value>)
    | Obj(members: seq<Member>)

  datatype Member = Member(key: string, value: Value)

  /** Position of the first member named `key`, or -1. */
  function KeyIndex(ms: seq<Member>, key: string): (i: int)
    ensures -1 <= i < |ms|
    ensures 0 <= i ==> ms[i].key == key
    ensures forall j | 0 <= j < |ms| && (i < 0 || j < i) :: ms[j].key != key
  {
    if |ms| == 0 then -1
    else if ms[0].key == key then 0
    else
      var j := KeyIndex(ms[1..], key);
      if j < 0 then -1 else j + 1
  }

  predicate HasKey(ms: seq<Member>, key: string)
  {
    KeyIndex(ms, key) >= 0
  }

  /** The value stored under a key the object has. */
  function Get(ms: seq<Member>, key: string): Value
    requires HasKey(ms, key)
  {
    ms[KeyIndex(ms, key)].value
  }

  function Keys(ms: seq<Member>): (ks: seq<string>)
    ensures |ks| == |ms|
    ensures forall i | 0 <= i < |ms| :: ks[i] == ms[i].key
  {
    if |ms| == 0 then [] else [ms[0].key] + Keys(ms[1..])
  }

  /** Python's `key in container` for a string key; `None` when Python
      raises a TypeError (numbers, booleans, None). */
  function Contains(container: Value, key: string): Option<bool>
  {
    match container
    case Obj(ms) => Some(HasKey(ms, key))
    case Arr(items) => Some(Str(key) in items)
    case Str(s) => Some(Text.IsSubstring(key, s))
    case _ => None
  }

  /** What `for x in container` visits: dict keys, list items or the
      characters of a string; `None` when Python raises a TypeError. */
  function Iterate(container: Value): Option<seq<Value>>
  {
    match container
    case Obj(ms) => Some(seq(|ms|, i requires 0 <= i < |ms| => Str(ms[i].key)))
    case Arr(items) => Some(items)
    case Str(s) => Some(seq(|s|, i requires 0 <= i < |s| => Str([s[i]])))
    case _ => None
  }

  /** Python's `container[key]` for a string key; `None` when Python raises
      (a missing key, or a container that is not a dict). */
  function GetItem(container: Value, key: string): Option<Value>
  {
    match container
    case Obj(ms) => if HasKey(ms, key) then Some(Get(ms, key)) else None
    case _ => None
  }

  /** Python's `bool(v)`. */
  predicate Truthy(v: Value)
  {
    match v
    case Null => false
    case Bool(b) => b
    case Num(n) => n != 0
    case Str(s) => |s| > 0
    case Arr(items) => |items| > 0
    case Obj(ms) => |ms| > 0
  }

  /** Python's `len(v)`; `None` when Python raises a TypeError. */
  function Length(v: Value): Option<nat>
  {
    match v
    case Str(s) => Some(|s|)
    case Arr(items) => Some(|items|)
    case Obj(ms) => Some(|ms|)
    case _ => None
  }

  /** Python's `int(v)`; `None` when Python raises. */
  function ToInt(v: Value): Option<int>
  {
    match v
    case Num(n) => Some(n)
    case Bool(b) => Some(if b then 1 else 0)
    case Str(s) => Text.ParseInt(s)
    case _ => None
  }

  /** The text an f-string interpolates for a scalar value; `None` for a
      list or dict. */
  function Display(v: Value): Option<string>
  {
    match v
    case Null => Some("None")
    case Bool(b) => Some(if b then "True" else "False")
    case Num(n) => Some(Text.Decimal(n))
    case Str(s) => Some(s)
    case _ => None
  }
}

=== FILE: ledger.dfy ===
/** The weekly download quota of the current generation (`check_download_limit`,
    `on_server_loads` and `update_file_limit` in repertoire.py). The quota
    lives in two places: the usage file on disk and the `USAGE` record held
    in the application's configuration. The check judges by the file; a
    served file adds its size to the in-memory record, which is then
    written back to the file. Times are integers in microseconds, the
    resolution of Python's `datetime`. */
module Ledger {
  import opened Wrappers

  /** `datetime.timedelta(days=7)`. */
  const Week: int := 7 * 24 * 3600 * 1000000

  /** `WEEKLY_LIMIT`: 100 GiB. */
  const WeeklyLimit: int := 100 * 1024 * 1024 * 1024

  /** A `USAGE` record: when the current window started and the bytes
      served since. */
  datatype Usage = Usage(startDate: int, bytesTransferred: int)

  /** The usage file (absent until first written), the in-memory `USAGE`
      record and the `FIRST_LOAD` flag. */
  datatype Ledger = Ledger(file: Option<Usage>, config: Usage, firstLoad: bool)

  /** The state when the application starts at `launchedAt`: the record the
      configuration module builds on import, with a usage file possibly
      left by an earlier run. */
  function Startup(existing: Option<Usage>, launchedAt: int): (l: Ledger)
    ensures l.file == existing && l.config == Usage(launchedAt, 0) && l.firstLoad
    ensures Coherent(l)
  {
    Ledger(existing, Usage(launchedAt, 0), true)
  }

  /** The record that counts: the file once it exists, the in-memory record
      before that. */
  function Recorded(l: Ledger): Usage
  {
    if l.file.Some? then l.file.value else l.config
  }

  /** Until the first check has loaded the file, memory and file may differ;
      afterwards they agree. */
  predicate Coherent(l: Ledger)
  {
    l.firstLoad || l.file.None? || l.file == Some(l.config)
  }

  /** Memory and file hold the same record. */
  predicate Synced(l: Ledger)
  {
    !l.firstLoad && l.file == Some(l.config)
  }

  /** Whether a window reset found by a check is written back. As written it
      is not: the reset is applied to a local copy only. */
  datatype ResetPolicy = InMemory | Persisted

  datatype Checked = Checked(allowed: bool, ledger: Ledger)

  /** The usage a check judges by: the record as read, restarted at `now`
      with nothing served when more than a week has passed since its start. */
  function Window(u: Usage, now: int): Usage
  {
    if now - u.startDate > Week then Usage(now, 0) else u
  }

  /** `check_download_limit()` at time `now`: create the file from memory if
      it is missing; on the first call, load the file into memory; then
      judge the file's record. `InMemory` is the source as written;
      `Persisted` writes the reset back, as the comment in the source says
      is meant ("Reset the usage if the week has passed"). */
  function CheckDownloadLimit(l: Ledger, now: int, policy: ResetPolicy): (r: Checked)
    ensures r.allowed <==>
      now - Recorded(l).startDate > Week || Recorded(l).bytesTransferred <= WeeklyLimit
    ensures Coherent(l) ==> Synced(r.ledger)
    ensures policy == InMemory ==> Recorded(r.ledger) == Recorded(l)
    ensures policy == Persisted ==> Recorded(r.ledger) == Window(Recorded(l), now)
    ensures policy == Persisted ==> (r.allowed <==> Recorded(r.ledger).bytesTransferred <= WeeklyLimit)
    ensures policy == Persisted && Recorded(l).startDate <= now ==>
      0 <= now - Recorded(r.ledger).startDate <= Week
  {
    var created := if l.file.None? then l.(file := Some(l.config)) else l;
    var loaded := if created.firstLoad then created.(firstLoad := false, config := created.file.value) else created;
    var u := loaded.file.value;
    var w := Window(u, now);
    var next := if policy == Persisted && w != u then loaded.(config := w, file := Some(w)) else loaded;
    Checked(w.bytesTransferred <= WeeklyLimit, next)
  }

  /** Serving a file: `current_usage['bytes_transferred'] += file_size`
      on the in-memory record, then `update_file_limit()`. */
  function RecordTransfer(l: Ledger, size: nat): (r: Ledger)
    ensures r.config == Usage(l.config.startDate, l.config.bytesTransferred + size)
    ensures r.file == Some(r.config) && r.firstLoad == l.firstLoad
    ensures Synced(l) ==> Synced(r) && Recorded(r).bytesTransferred == Recorded(l).bytesTransferred + size
  {
    var u := l.config.(bytesTransferred := l.config.bytesTransferred + size);
    l.(config := u, file := Some(u))
  }

  /** One rearrangement request at time `now`; `served` is the size of the
      file the request delivers when the quota allows it (`None` for a facet
      query, an invalid request or a missing file). */
  datatype Request = Request(now: int, served: Option<nat>)

  /** The ledger after one request: the check, then the transfer if the
      check allowed it and a file was served. */
  function Step(l: Ledger, req: Request, policy: ResetPolicy): (r: Ledger)
    ensures Coherent(l) ==> Synced(r)
    ensures policy == InMemory && Coherent(l) ==>
      var allowed := CheckDownloadLimit(l, req.now, policy).allowed;
      Recorded(r) == Recorded(l).(bytesTransferred := Recorded(l).bytesTransferred +
        if allowed && req.served.Some? then req.served.value else 0)
  {
    var c := CheckDownloadLimit(l, req.now, policy);
    if c.allowed && req.served.Some? then RecordTransfer(c.ledger, req.served.value) else c.ledger
  }

  function Run(l: Ledger, reqs: seq<Request>, policy: ResetPolicy): Ledger
    decreases |reqs|
  {
    if |reqs| == 0 then l else Run(Step(l, reqs[0], policy), reqs[1..], policy)
  }

  /** As written, the window start on record never moves: every later
      record keeps the start of the first one written. */
  lemma {:induction false} StartNeverMoves(l: Ledger, reqs: seq<Request>)
    requires Coherent(l)
    ensures Recorded(Run(l, reqs, InMemory)).startDate == Recorded(l).startDate
    ensures Recorded(Run(l, reqs, InMemory)).bytesTransferred >= Recorded(l).bytesTransferred
    decreases |reqs|
  {
    if |reqs| > 0 {
      var next := Step(l, reqs[0], InMemory);
      StartNeverMoves(next, reqs[1..]);
    }
  }

  /** As written, once a week has passed since the first record was written,
      every check allows, whatever has been served since. */
  lemma NeverDeniesAfterFirstWeek(l: Ledger, reqs: seq<Request>, now: int)
    requires Coherent(l)
    requires now - Recorded(l).startDate > Week
    ensures CheckDownloadLimit(Run(l, reqs, InMemory), now, InMemory).allowed
  {
    StartNeverMoves(l, reqs);
  }

  /** Request times that never go backwards and do not precede the record. */
  predicate Chronological(start: int, reqs: seq<Request>)
  {
    && (forall i | 0 <= i < |reqs| :: start <= reqs[i].now)
    && (forall i, j | 0 <= i < j < |reqs| :: reqs[i].now <= reqs[j].now)
  }

  /** With the reset written back, after any run of requests the record's
      window started within a week of the latest request, so the limit
      applies to what was served in the current week. */
  lemma {:induction false} PersistedWindowFollowsClock(l: Ledger, reqs: seq<Request>)
    requires Coherent(l) && |reqs| > 0
    requires Chronological(Recorded(l).startDate, reqs)
    ensures var r := Run(l, reqs, Persisted);
      Synced(r) && 0 <= reqs[|reqs| - 1].now - Recorded(r).startDate <= Week
    decreases |reqs|
  {
    var next := Step(l, reqs[0], Persisted);
    var c := CheckDownloadLimit(l, reqs[0].now, Persisted);
    assert Recorded(next).startDate == Recorded(c.ledger).startDate;
    assert 0 <= reqs[0].now - Recorded(next).startDate <= Week;
    if |reqs| > 1 {
      var rest := reqs[1..];
      assert Chronological(Recorded(next).startDate, rest) by {
        forall i | 0 <= i < |rest| ensures Recorded(next).startDate <= rest[i].now {
          assert rest[i] == reqs[i + 1];
        }
        forall i, j | 0 <= i < j < |rest| ensures rest[i].now <= rest[j].now {
          assert rest[i] == reqs[i + 1] && rest[j] == reqs[j + 1];
        }
      }
      PersistedWindowFollowsClock(next, rest);
      assert rest[|rest| - 1] == reqs[|reqs| - 1];
    } else {
      assert reqs[1..] == [];
    }
  }

  /** A file served right after the first week ends: as written the next
      check allows although more than the weekly limit was served a moment
      before; with the reset written back it denies. */
  lemma QuotaLapsesAfterFirstWeek()
    ensures
      var l := Run(Startup(None, 0), [Request(Week + 1, Some(WeeklyLimit + 1))], InMemory);
      CheckDownloadLimit(l, Week + 2, InMemory).allowed
    ensures
      var l := Run(Startup(None, 0), [Request(Week + 1, Some(WeeklyLimit + 1))], Persisted);
      !CheckDownloadLimit(l, Week + 2, Persisted).allowed
  {
    var reqs := [Request(Week + 1, Some(WeeklyLimit + 1))];
    assert reqs[1..] == [];
    var l0 := Startup(None, 0);
    assert Recorded(Run(l0, reqs, InMemory)) == Usage(0, WeeklyLimit + 1);
    assert Recorded(Run(l0, reqs, Persisted)) == Usage(Week + 1, WeeklyLimit + 1);
  }
}

=== FILE: requests.dfy ===
/** The request-shape validators of both generations of the service:
    `validate_repertoire_request` and `validate_request` in repertoire.py
    (`Current`) and in app/repertoire.py (`Early`). Each is a chain of
    checks in which the first failure is the answer. */
module Requests {
  import opened Wrappers
  import opened Json

  /** Which generation of the source a validator follows. */
  datatype Variant = Early | Current

  /** The rejections the validators return, one per error message. */
  datatype RequestError =
    | UnexpectedField(key: Value)    // "Unexpected field '<key>' in request"
    | MissingFilters                 // "Missing 'filters' in request"
    | MissingContentOrOp             // "Missing 'content' or 'op' in filters"
    | MissingField                   // "Missing 'field' in filter content"
    | MissingValue                   // "Missing 'value' in filter content"
    | UnexpectedContent(key: Value)  // "Unexpected content '<key>' in request"
    | InvalidFilterField             // "Invalid filter field, only '<field>' is allowed"
    | InvalidFilterOperation         // "Invalid filter operation, only <ops> is allowed"
    | MissingFacets                  // "Missing 'facets' in request"
    | InvalidFacets                  // "Invalid facets, only 'repertoire_id' is allowed"
    | InvalidFormat                  // "Invalid format, only 'tsv' is allowed"
    | MissingContent                 // "Missing 'content' in filters"

  /** A validator's answer: `(True, value)`, `(False, error)`, or a Python
      exception escaping the validator. */
  datatype Verdict<+T> = Valid(value: T) | Invalid(error: RequestError) | Raises

  /** Top-level keys a repertoire list query may carry. */
  function RepertoireKeys(v: Variant): seq<string>
  {
    match v
    case Early => ["filters"]
    case Current => ["filters", "fields"]
  }

  /** The only filter field a repertoire list query accepts. */
  function StudyField(v: Variant): string
  {
    match v
    case Early => "study.study_id"
    case Current => "study_id"
  }

  const RearrangementKeys: seq<string> := ["filters", "facets", "format"]
  const ContentKeys: seq<string> := ["field", "value"]

  /** The filter operators a rearrangement query accepts. */
  function RearrangementOps(v: Variant): seq<Value>
  {
    match v
    case Early => [Str("in")]
    case Current => [Str("in"), Str("=")]
  }

  /** Python's `key not in expected` for a list of strings. */
  predicate Unexpected(key: Value, expected: seq<string>)
  {
    !(key.Str? && key.s in expected)
  }

  /** The first iterated key that is not expected. */
  function FirstUnexpected(keys: seq<Value>, expected: seq<string>): (r: Option<Value>)
    ensures r.None? <==> forall i | 0 <= i < |keys| :: !Unexpected(keys[i], expected)
    ensures r.Some? ==> exists i | 0 <= i < |keys| ::
      && keys[i] == r.value && Unexpected(keys[i], expected)
      && forall j | 0 <= j < i :: !Unexpected(keys[j], expected)
  {
    if |keys| == 0 then None
    else if Unexpected(keys[0], expected) then Some(keys[0])
    else
      var r := FirstUnexpected(keys[1..], expected);
      assert forall i | 1 <= i < |keys| :: keys[i] == keys[1..][i - 1];
      r
  }

  /** Every member of a dict has one of the allowed keys. */
  predicate OnlyKeys(ms: seq<Member>, allowed: seq<string>)
  {
    forall i | 0 <= i < |ms| :: ms[i].key in allowed
  }

  /** The first member of a dict whose key is not allowed. */
  predicate FirstBadKey(ms: seq<Member>, allowed: seq<string>, key: string)
  {
    exists i | 0 <= i < |ms| ::
      ms[i].key == key && key !in allowed && forall j | 0 <= j < i :: ms[j].key in allowed
  }

  /** For a dict, the iteration check passes exactly when every key is
      allowed, and otherwise names the first key that is not. */
  lemma ObjectKeys(req: Value, allowed: seq<string>)
    ensures req.Obj? ==> (FirstUnexpected(Iterate(req).value, allowed).None? <==> OnlyKeys(req.members, allowed))
    ensures req.Obj? ==> forall key | FirstBadKey(req.members, allowed, key) ::
      FirstUnexpected(Iterate(req).value, allowed) == Some(Str(key))
  {
    if req.Obj? {
      var ms := req.members;
      var keys := Iterate(req).value;
      assert forall i | 0 <= i < |ms| :: keys[i] == Str(ms[i].key);
      forall key | FirstBadKey(ms, allowed, key)
        ensures FirstUnexpected(keys, allowed) == Some(Str(key))
      {
        var i :| 0 <= i < |ms| && ms[i].key == key && key !in allowed && forall j | 0 <= j < i :: ms[j].key in allowed;
        var r := FirstUnexpected(keys, allowed);
        var i' :| 0 <= i' < |keys| && keys[i'] == r.value && Unexpected(keys[i'], allowed)
          && forall j | 0 <= j < i' :: !Unexpected(keys[j], allowed);
        assert Unexpected(keys[i], allowed);
        assert i' == i;
      }
    }
  }

  /** The filter part of a repertoire list query the validator accepts:
      `{"op": "=", "content": {"field": <study field>, "value": x}}`. */
  predicate StudyFilterShape(v: Variant, filters: Value, x: Value)
  {
    && filters.Obj? && HasKey(filters.members, "content") && HasKey(filters.members, "op")
    && var content := Get(filters.members, "content");
    && content.Obj? && HasKey(content.members, "field") && HasKey(content.members, "value")
    && (v == Current ==> OnlyKeys(content.members, ContentKeys))
    && Get(content.members, "field") == Str(StudyField(v))
    && Get(filters.members, "op") == Str("=")
    && x == Get(content.members, "value")
  }

  /** The checks on `filters` of a repertoire list query, in source order:
      on a dict, each rejection is the answer once the checks before it pass. */
  function StudyFilter(v: Variant, filters: Value): (r: Verdict<Value>)
    ensures forall x :: r == Valid(x) <==> StudyFilterShape(v, filters, x)
    ensures filters.Obj? && !(HasKey(filters.members, "content") && HasKey(filters.members, "op")) ==>
      r == Invalid(MissingContentOrOp)
    ensures (filters.Obj? && HasKey(filters.members, "content") && HasKey(filters.members, "op")
      && Get(filters.members, "content").Obj?) ==>
      var cm := Get(filters.members, "content").members;
      && (!HasKey(cm, "field") ==> r == Invalid(MissingField))
      && (HasKey(cm, "field") && !HasKey(cm, "value") ==> r == Invalid(MissingValue))
      && (HasKey(cm, "field") && HasKey(cm, "value") && v == Current ==>
            forall key | FirstBadKey(cm, ContentKeys, key) :: r == Invalid(UnexpectedContent(Str(key))))
      && (HasKey(cm, "field") && HasKey(cm, "value") && (v == Current ==> OnlyKeys(cm, ContentKeys)) ==>
            && (Get(cm, "field") != Str(StudyField(v)) ==> r == Invalid(InvalidFilterField))
            && (Get(cm, "field") == Str(StudyField(v)) && Get(filters.members, "op") != Str("=") ==>
                  r == Invalid(InvalidFilterOperation)))
  {
    var hasContent := Contains(filters, "content");
    if hasContent.None? then Raises
    else if !hasContent.value || Contains(filters, "op") == Some(false) then Invalid(MissingContentOrOp)
    else if !filters.Obj? then Raises
    else
      var content := Get(filters.members, "content");
      var op := Get(filters.members, "op");
      ObjectKeys(content, ContentKeys);
      var hasField := Contains(content, "field");
      if hasField.None? then Raises
      else if !hasField.value then Invalid(MissingField)
      else if Contains(content, "value") == Some(false) then Invalid(MissingValue)
      else if v == Current && FirstUnexpected(Iterate(content).value, ContentKeys).Some? then
        Invalid(UnexpectedContent(FirstUnexpected(Iterate(content).value, ContentKeys).value))
      else if !content.Obj? then Raises
      else if Get(content.members, "field") != Str(StudyField(v)) then Invalid(InvalidFilterField)
      else if op != Str("=") then Invalid(InvalidFilterOperation)
      else Valid(Get(content.members, "value"))
  }

  /** A repertoire list query the validator accepts with study value `x`. */
  predicate StudyQuery(v: Variant, req: Value, x: Value)
  {
    && req.Obj? && OnlyKeys(req.members, RepertoireKeys(v)) && HasKey(req.members, "filters")
    && StudyFilterShape(v, Get(req.members, "filters"), x)
  }

  /** `validate_repertoire_request`: the study value to filter by, or, in the
      current generation, `None` when the query has no `filters`. */
  function ValidateRepertoireRequest(v: Variant, req: Value): (r: Verdict<Option<Value>>)
    ensures forall x :: r == Valid(Some(x)) <==> StudyQuery(v, req, x)
    ensures req.Obj? ==> (r == Valid(None) <==> v == Current && OnlyKeys(req.members, ["fields"]))
    ensures req.Obj? ==> forall key | FirstBadKey(req.members, RepertoireKeys(v), key) ::
      r == Invalid(UnexpectedField(Str(key)))
    ensures req.Obj? && v == Early && OnlyKeys(req.members, ["filters"]) && !HasKey(req.members, "filters") ==>
      r == Invalid(MissingFilters)
    ensures req.Obj? && OnlyKeys(req.members, RepertoireKeys(v)) && HasKey(req.members, "filters") ==>
      match StudyFilter(v, Get(req.members, "filters"))
      case Valid(x) => r == Valid(Some(x))
      case Invalid(e) => r == Invalid(e)
      case Raises => r == Raises
  {
    ObjectKeys(req, RepertoireKeys(v));
    var keys := Iterate(req);
    if keys.None? then Raises
    else
      var bad := FirstUnexpected(keys.value, RepertoireKeys(v));
      if bad.Some? then Invalid(UnexpectedField(bad.value))
      else if Contains(req, "filters") != Some(true) then
        if v == Current then Valid(None) else Invalid(MissingFilters)
      else if !req.Obj? then Raises
      else
        match StudyFilter(v, Get(req.members, "filters"))
        case Valid(x) => Valid(Some(x))
        case Invalid(e) => Invalid(e)
        case Raises => Raises
  }

  /** A rearrangement query whose top-level keys pass the checks, with
      `filters` value `f`. */
  predicate RearrangementHeader(req: Value, f: Value)
  {
    && req.Obj? && OnlyKeys(req.members, RearrangementKeys) && HasKey(req.members, "filters")
    && (HasKey(req.members, "facets") || HasKey(req.members, "format"))
    && (HasKey(req.members, "facets") ==> Get(req.members, "facets") == Str("repertoire_id"))
    && (HasKey(req.members, "format") ==> Get(req.members, "format") == Str("tsv"))
    && f == Get(req.members, "filters")
  }

  /** A `filters` value the validator accepts with filter value `x`. */
  predicate RearrangementFilter(v: Variant, filters: Value, x: Value)
  {
    && filters.Obj? && HasKey(filters.members, "content") && HasKey(filters.members, "op")
    && var content := Get(filters.members, "content");
    && content.Obj? && HasKey(content.members, "field") && HasKey(content.members, "value")
    && Get(content.members, "field") == Str("repertoire_id")
    && Get(filters.members, "op") in RearrangementOps(v)
    && x == Get(content.members, "value")
  }

  /** A rearrangement query the validator accepts with filter value `x`. */
  predicate RearrangementQuery(v: Variant, req: Value, x: Value)
  {
    req.Obj? && HasKey(req.members, "filters") && RearrangementHeader(req, Get(req.members, "filters"))
    && RearrangementFilter(v, Get(req.members, "filters"), x)
  }

  /** The top-level checks of `validate_request`, up to the format check:
      the `filters` value when they pass. */
  function CheckRearrangementHeader(req: Value): (r: Verdict<Value>)
    ensures forall f :: r == Valid(f) <==> RearrangementHeader(req, f)
    ensures req.Obj? ==> forall key | FirstBadKey(req.members, RearrangementKeys, key) ::
      r == Invalid(UnexpectedField(Str(key)))
    ensures req.Obj? && OnlyKeys(req.members, RearrangementKeys) ==>
      && (!HasKey(req.members, "filters") ==> r == Invalid(MissingFilters))
      && (HasKey(req.members, "filters") && !HasKey(req.members, "facets") && !HasKey(req.members, "format") ==>
            r == Invalid(MissingFacets))
      && ((HasKey(req.members, "filters") && HasKey(req.members, "facets")
            && Get(req.members, "facets") != Str("repertoire_id")) ==> r == Invalid(InvalidFacets))
      && ((HasKey(req.members, "filters") && HasKey(req.members, "format")
            && (HasKey(req.members, "facets") ==> Get(req.members, "facets") == Str("repertoire_id"))
            && Get(req.members, "format") != Str("tsv")) ==> r == Invalid(InvalidFormat))
  {
    ObjectKeys(req, RearrangementKeys);
    var keys := Iterate(req);
    if keys.None? then Raises
    else
      var bad := FirstUnexpected(keys.value, RearrangementKeys);
      if bad.Some? then Invalid(UnexpectedField(bad.value))
      else if Contains(req, "filters") != Some(true) then Invalid(MissingFilters)
      else
        var facets := Contains(req, "facets") == Some(true);
        var format := Contains(req, "format") == Some(true);
        if !facets && !format then Invalid(MissingFacets)
        else if !req.Obj? then Raises
        else if facets && Get(req.members, "facets") != Str("repertoire_id") then Invalid(InvalidFacets)
        else if format && Get(req.members, "format") != Str("tsv") then Invalid(InvalidFormat)
        else Valid(Get(req.members, "filters"))
  }

  /** The checks of `validate_request` on the `filters` value: the filter
      value when they pass. */
  function CheckRearrangementFilter(v: Variant, filters: Value): (r: Verdict<Value>)
    ensures forall x :: r == Valid(x) <==> RearrangementFilter(v, filters, x)
    ensures !filters.Obj? || !HasKey(filters.members, "content") || !HasKey(filters.members, "op") ==> r == Raises
    ensures filters.Obj? && HasKey(filters.members, "content") && HasKey(filters.members, "op") ==>
      var content := Get(filters.members, "content");
      && (!Truthy(content) ==> r == Invalid(MissingContent))
      && (content.Obj? && |content.members| > 0 ==>
            var cm := content.members;
            && (!HasKey(cm, "field") ==> r == Invalid(MissingField))
            && (HasKey(cm, "field") && !HasKey(cm, "value") ==> r == Invalid(MissingValue))
            && (HasKey(cm, "field") && HasKey(cm, "value") ==>
                  && (Get(cm, "field") != Str("repertoire_id") ==> r == Invalid(InvalidFilterField))
                  && (Get(cm, "field") == Str("repertoire_id") && Get(filters.members, "op") !in RearrangementOps(v) ==>
                        r == Invalid(InvalidFilterOperation))))
  {
    if !filters.Obj? || !HasKey(filters.members, "content") || !HasKey(filters.members, "op") then Raises
    else
      var content := Get(filters.members, "content");
      var op := Get(filters.members, "op");
      if !Truthy(content) then Invalid(MissingContent)
      else
        var hasField := Contains(content, "field");
        if hasField.None? then Raises
        else if !hasField.value then Invalid(MissingField)
        else if Contains(content, "value") == Some(false) then Invalid(MissingValue)
        else if !content.Obj? then Raises
        else if Get(content.members, "field") != Str("repertoire_id") then Invalid(InvalidFilterField)
        else if op !in RearrangementOps(v) then Invalid(InvalidFilterOperation)
        else Valid(Get(content.members, "value"))
  }

  /** `validate_request`: the filter value (one id or a list of ids). */
  function ValidateRearrangementRequest(v: Variant, req: Value): (r: Verdict<Value>)
    ensures forall x :: r == Valid(x) <==> RearrangementQuery(v, req, x)
    ensures req.Obj? ==> forall key | FirstBadKey(req.members, RearrangementKeys, key) ::
      r == Invalid(UnexpectedField(Str(key)))
    ensures req.Obj? && OnlyKeys(req.members, RearrangementKeys) ==>
      && (!HasKey(req.members, "filters") ==> r == Invalid(MissingFilters))
      && (HasKey(req.members, "filters") && !HasKey(req.members, "facets") && !HasKey(req.members, "format") ==>
            r == Invalid(MissingFacets))
      && ((HasKey(req.members, "filters") && HasKey(req.members, "facets")
            && Get(req.members, "facets") != Str("repertoire_id")) ==> r == Invalid(InvalidFacets))
      && ((HasKey(req.members, "filters") && HasKey(req.members, "format")
            && (HasKey(req.members, "facets") ==> Get(req.members, "facets") == Str("repertoire_id"))
            && Get(req.members, "format") != Str("tsv")) ==> r == Invalid(InvalidFormat))
    ensures forall f | RearrangementHeader(req, f) :: r == CheckRearrangementFilter(v, f)
  {
    match CheckRearrangementHeader(req)
    case Valid(filters) => CheckRearrangementFilter(v, filters)
    case Invalid(e) => Invalid(e)
    case Raises => Raises
  }

  /** Once the filter is well formed for the current generation, only the
      operator can still decide against it. */
  lemma OperatorDecides(v: Variant, filters: Value, x: Value)
    requires RearrangementFilter(Current, filters, x)
    ensures CheckRearrangementFilter(v, filters) ==
      if Get(filters.members, "op") in RearrangementOps(v) then Valid(x) else Invalid(InvalidFilterOperation)
  {
    var content := Get(filters.members, "content");
    assert Truthy(content);
  }

  /** The generations accept the same rearrangement queries apart from the
      operator: the early one takes only "in" and rejects "=". */
  lemma EarlyAcceptsOnlyIn(req: Value, x: Value)
    requires RearrangementQuery(Current, req, x)
    ensures var op := Get(Get(req.members, "filters").members, "op");
      ValidateRearrangementRequest(Early, req) == if op == Str("in") then Valid(x) else Invalid(InvalidFilterOperation)
  {
    var filters := Get(req.members, "filters");
    assert CheckRearrangementHeader(req) == Valid(filters);
    OperatorDecides(Early, filters, x);
  }
}

=== FILE: text.dfy ===
/** The string operations the service relies on: dotted field paths,
    substring tests, `str.replace` and POSIX `os.path.join`. */
module Text {
  import opened Wrappers

  /** Python's `s.split('.')`: the dot-free segments between the dots, so
      "a..b" gives ["a", "", "b"] and "" gives [""]. */
  function Split(s: string): (parts: seq<string>)
    ensures |parts| >= 1
    ensures forall i | 0 <= i < |parts| :: '.' !in parts[i]
    decreases |s|
  {
    if |s| == 0 then [""]
    else
      var rest := Split(s[1..]);
      if s[0] == '.' then [""] + rest
      else [[s[0]] + rest[0]] + rest[1..]
  }

  /** Python's `'.'.join(parts)`. */
  function Join(parts: seq<string>): string
  {
    if |parts| == 0 then ""
    else if |parts| == 1 then parts[0]
    else parts[0] + "." + Join(parts[1..])
  }

  /** Joining the segments of a split gives the original path back. */
  lemma {:induction false} JoinSplit(s: string)
    ensures Join(Split(s)) == s
    decreases |s|
  {
    if |s| == 0 {
    } else {
      var rest := Split(s[1..]);
      JoinSplit(s[1..]);
      if s[0] == '.' {
        assert Split(s) == [""] + rest;
        assert Join(Split(s)) == "" + "." + Join(rest);
      } else {
        var parts := [[s[0]] + rest[0]] + rest[1..];
        assert Split(s) == parts;
        if |rest| == 1 {
          assert Join(parts) == [s[0]] + rest[0];
          assert Join(rest) == rest[0];
        } else {
          assert parts[1..] == rest[1..];
          assert Join(parts) == [s[0]] + rest[0] + "." + Join(rest[1..]);
          assert Join(rest) == rest[0] + "." + Join(rest[1..]);
        }
        assert s == [s[0]] + s[1..];
      }
    }
  }

  /** Splitting a segment with no dot in it yields that segment alone. */
  lemma {:induction false} SplitSegment(a: string)
    requires '.' !in a
    ensures Split(a) == [a]
    decreases |a|
  {
    if |a| > 0 {
      assert '.' !in a[1..] by {
        forall i | 0 <= i < |a[1..]| ensures a[1..][i] != '.' {
          assert a[1..][i] == a[i + 1];
        }
      }
      SplitSegment(a[1..]);
      assert a == [a[0]] + a[1..];
    }
  }

  /** Splitting `a.b` when `a` has no dot splits off `a` first. */
  lemma {:induction false} SplitCons(a: string, b: string)
    requires '.' !in a
    ensures Split(a + "." + b) == [a] + Split(b)
    decreases |a|
  {
    if |a| == 0 {
      assert a + "." + b == "." + b;
      assert ("." + b)[1..] == b;
    } else {
      assert '.' !in a[1..] by {
        forall i | 0 <= i < |a[1..]| ensures a[1..][i] != '.' {
          assert a[1..][i] == a[i + 1];
        }
      }
      SplitCons(a[1..], b);
      assert (a + "." + b)[1..] == a[1..] + "." + b;
      assert (a + "." + b)[0] == a[0];
      assert a == [a[0]] + a[1..];
    }
  }

  /** Dot-free segments survive a join followed by a split. */
  lemma {:induction false} SplitJoin(parts: seq<string>)
    requires |parts| >= 1
    requires forall i | 0 <= i < |parts| :: '.' !in parts[i]
    ensures Split(Join(parts)) == parts
    decreases |parts|
  {
    if |parts| == 1 {
      SplitSegment(parts[0]);
    } else {
      SplitJoin(parts[1..]);
      SplitCons(parts[0], Join(parts[1..]));
      assert parts == [parts[0]] + parts[1..];
    }
  }

  /** Python's `needle in hay` on two strings. */
  predicate IsSubstring(needle: string, hay: string)
  {
    exists i | 0 <= i <= |hay| - |needle| :: OccursAt(needle, hay, i)
  }

  /** `needle` starts at position `i` of `hay`. */
  predicate OccursAt(needle: string, hay: string, i: int)
    requires 0 <= i <= |hay| - |needle|
  {
    hay[i..i + |needle|] == needle
  }

  /** Python's `s.replace(pat, rep)` for a non-empty pattern: every
      non-overlapping occurrence, scanning from the left, is replaced. */
  function ReplaceAll(s: string, pat: string, rep: string): string
    requires |pat| > 0
    decreases |s|
  {
    if |s| < |pat| then s
    else if s[..|pat|] == pat then rep + ReplaceAll(s[|pat|..], pat, rep)
    else [s[0]] + ReplaceAll(s[1..], pat, rep)
  }

  /** A string that does not contain the pattern is left alone. */
  lemma {:induction false} ReplaceAbsent(s: string, pat: string, rep: string)
    requires |pat| > 0
    requires !IsSubstring(pat, s)
    ensures ReplaceAll(s, pat, rep) == s
    decreases |s|
  {
    if |s| >= |pat| {
      assert !OccursAt(pat, s, 0);
      AbsentFromTail(pat, s);
      ReplaceAbsent(s[1..], pat, rep);
      assert s == [s[0]] + s[1..];
    }
  }

  /** Dropping the first character cannot create an occurrence. */
  lemma AbsentFromTail(pat: string, s: string)
    requires |s| > 0 && !IsSubstring(pat, s)
    ensures !IsSubstring(pat, s[1..])
  {
    var tail := s[1..];
    forall i | 0 <= i <= |tail| - |pat| ensures !OccursAt(pat, tail, i) {
      assert tail[i..i + |pat|] == s[i + 1..i + 1 + |pat|];
      assert !OccursAt(pat, s, i + 1);
    }
  }

  /** A window at the front of `dir + pat` either lies inside `dir` or
      covers its final '/', which the pattern does not contain. */
  lemma NoMatchAtFront(dir: string, pat: string)
    requires |pat| > 0 && '/' !in pat
    requires |dir| > 0 && dir[|dir| - 1] == '/'
    requires !IsSubstring(pat, dir)
    ensures (dir + pat)[..|pat|] != pat
  {
    var s := dir + pat;
    if |dir| >= |pat| {
      assert s[..|pat|] == dir[0..|pat|];
      assert !OccursAt(pat, dir, 0);
    } else {
      assert s[..|pat|][|dir| - 1] == '/';
    }
  }

  /** When a directory prefix ending in a separator holds no occurrence of a
      separator-free pattern, replacing the pattern in `dir + pat` rewrites
      only the trailing file name. */
  lemma {:induction false} ReplaceTrailing(dir: string, pat: string, rep: string)
    requires |pat| > 0 && '/' !in pat
    requires |dir| == 0 || dir[|dir| - 1] == '/'
    requires !IsSubstring(pat, dir)
    ensures ReplaceAll(dir + pat, pat, rep) == dir + rep
    decreases |dir|
  {
    if |dir| == 0 {
      assert dir + pat == pat;
      ReplaceWhole(pat, rep);
    } else {
      var tail := dir[1..];
      NoMatchAtFront(dir, pat);
      AbsentFromTail(pat, dir);
      ReplaceTrailing(tail, pat, rep);
      ReplaceStep(dir, pat, rep, tail + rep);
    }
  }

  /** The pattern on its own is replaced whole. */
  lemma ReplaceWhole(pat: string, rep: string)
    requires |pat| > 0
    ensures ReplaceAll(pat, pat, rep) == rep
  {
    assert pat[..|pat|] == pat;
    assert pat[|pat|..] == "";
    assert rep + "" == rep;
  }

  /** With no match at the front, `dir + pat` keeps its first character and
      continues with the rest. */
  lemma ReplaceStep(dir: string, pat: string, rep: string, rest: string)
    requires |pat| > 0 && |dir| > 0
    requires (dir + pat)[..|pat|] != pat
    requires ReplaceAll(dir[1..] + pat, pat, rep) == rest
    ensures ReplaceAll(dir + pat, pat, rep) == [dir[0]] + rest
  {
    var s := dir + pat;
    assert s[1..] == dir[1..] + pat;
  }

  /** POSIX `os.path.join(a, b)` for two components. */
  function PathJoin(a: string, b: string): string
  {
    if |b| > 0 && b[0] == '/' then b
    else if |a| == 0 || a[|a| - 1] == '/' then a + b
    else a + "/" + b
  }

  /** The directory part `os.path.join(dir, name)` puts in front of a
      relative name: empty, or ending in '/'. */
  function DirPrefix(dir: string): (p: string)
    ensures |p| == 0 || p[|p| - 1] == '/'
    ensures p == dir || p == dir + "/"
  {
    if |dir| == 0 || dir[|dir| - 1] == '/' then dir else dir + "/"
  }

  /** Joining a relative name puts it after the directory prefix. */
  lemma JoinRelative(dir: string, name: string)
    requires |name| == 0 || name[0] != '/'
    ensures PathJoin(dir, name) == DirPrefix(dir) + name
  {
    if |dir| > 0 && dir[|dir| - 1] != '/' {
      assert dir + "/" + name == (dir + "/") + name;
    }
  }

  /** Adding a separator to a directory cannot create an occurrence of a
      separator-free pattern. */
  lemma DirPrefixKeepsAbsence(dir: string, pat: string)
    requires |pat| > 0 && '/' !in pat
    requires !IsSubstring(pat, dir)
    ensures !IsSubstring(pat, DirPrefix(dir))
  {
    var p := DirPrefix(dir);
    if p != dir {
      forall i | 0 <= i <= |p| - |pat| ensures !OccursAt(pat, p, i) {
        if i + |pat| <= |dir| {
          assert p[i..i + |pat|] == dir[i..i + |pat|];
          assert !OccursAt(pat, dir, i);
        } else {
          assert p[i..i + |pat|][|pat| - 1] == '/';
        }
      }
    }
  }

  /** The decimal spelling Python's `str()` gives an integer. */
  function Decimal(n: int): string
    decreases if n < 0 then 1 - n else n
  {
    if n < 0 then "-" + Decimal(-n)
    else if n < 10 then [Digit(n)]
    else Decimal(n / 10) + [Digit(n % 10)]
  }

  function Digit(d: int): char
    requires 0 <= d < 10
  {
    "0123456789"[d]
  }

  /** Python's `int(s)` on an optionally signed run of ASCII digits. */
  function ParseInt(s: string): (r: Option<int>)
  {
    if |s| > 0 && (s[0] == '-' || s[0] == '+') then
      match ParseDigits(s[1..])
      case None => None
      case Some(v) => Some(if s[0] == '-' then -v else v)
    else ParseDigits(s)
  }

  function ParseDigits(s: string): Option<int>
  {
    if |s| == 0 || exists i | 0 <= i < |s| :: !('0' <= s[i] <= '9') then None
    else Some(DigitsValue(s))
  }

  function DigitsValue(s: string): nat
    requires forall i | 0 <= i < |s| :: '0' <= s[i] <= '9'
  {
    if |s| == 0 then 0
    else DigitsValue(s[..|s| - 1]) * 10 + (s[|s| - 1] as int - '0' as int)
  }

}

=== FILE: wrappers.dfy ===
/** The Option, Result and Outcome wrappers and the sequence helpers shared by the model. */
module Wrappers {

  /** Python's `None` or a value. */
  datatype Option<+T> = None | Some(value: T)

  /** A value, or an error the source turns into an error response. */
  datatype Result<+T, +E> = Success(value: T) | Failure(error: E)

  /** A Python call that either returns or raises an exception nobody catches. */
  datatype Outcome<+T> = Returned(value: T) | Raised

  /** Concatenation of a sequence of sequences, in order. */
  function Flatten<T>(xss: seq<seq<T>>): (r: seq<T>)
    ensures |r| == SumLengths(xss)
  {
    if |xss| == 0 then [] else xss[0] + Flatten(xss[1..])
  }

  function SumLengths<T>(xss: seq<seq<T>>): nat
  {
    if |xss| == 0 then 0 else |xss[0]| + SumLengths(xss[1..])
  }

  lemma {:induction false} FlattenAppend<T>(xss: seq<seq<T>>, yss: seq<seq<T>>)
    ensures Flatten(xss + yss) == Flatten(xss) + Flatten(yss)
  {
    if |xss| == 0 {
      assert xss + yss == yss;
    } else {
      assert (xss + yss)[1..] == xss[1..] + yss;
      FlattenAppend(xss[1..], yss);
    }
  }

  /** Flattening lists of which only the `j`-th may be non-empty gives that list. */
  lemma {:induction false} FlattenSingle<T>(xss: seq<seq<T>>, j: nat)
    requires j < |xss|
    requires forall k | 0 <= k < |xss| && k != j :: xss[k] == []
    ensures Flatten(xss) == xss[j]
    decreases |xss|
  {
    if j == 0 {
      FlattenEmpty(xss[1..]);
      assert xss[0] + [] == xss[0];
    } else {
      assert xss[0] == [];
      FlattenSingle(xss[1..], j - 1);
      assert [] + xss[j] == xss[j];
    }
  }

  /** Flattening lists that are all empty gives the empty list. */
  lemma {:induction false} FlattenEmpty<T>(xss: seq<seq<T>>)
    requires forall k | 0 <= k < |xss| :: xss[k] == []
    ensures Flatten(xss) == []
    decreases |xss|
  {
    if |xss| > 0 {
      FlattenEmpty(xss[1..]);
    }
  }
}
